=== FILE: README.md ===
# Process and host bookkeeping of a web process manager

This project models, in Dafny, the bookkeeping core of a small Next.js process
manager. The manager starts, stops and restarts shell commands on the local machine,
keeps a registry of SSH hosts, routes requests either to the local supervisor or to a
remote stub, and exports and imports process configurations as JSON.

Every module is a functional state machine. A JavaScript `Map` is modelled as an
insertion-ordered store (`Keyed.Store`: an order sequence plus a map). Each request,
and each environment event, is a pure function from the old store to the new store
and a result. The environment events are the spawn outcome, the signal delivery, the
child's exit, an output chunk, a probe reply and a timer firing. Ids, timestamps,
random draws, child handles and the outcomes of foreign I/O are all parameters.
Log lines are modelled as `LogLine(at, event)` with one constructor per message the
source writes; the Chinese texts themselves are not reproduced.

| file | module | models |
|---|---|---|
| common.dfy | `Common` | `Option`, JavaScript truthiness of optional strings, `a \|\| b` defaults |
| keyed.dfy | `Keyed` | an insertion-ordered map: `set`, `delete`, `get`, `values()` |
| text.dfy | `Text` | ECMAScript white space, `trim()`, `split(/\s+/)`, and the command split |
| process_types.dfy | `ProcessTypes` | the `Process` record, its status, and its log lines |
| real_supervisor.dfy | `RealSupervisor` | `lib/real-process-manager.ts` |
| sim_supervisor.dfy | `SimSupervisor` | `lib/process-manager.ts` |
| host_registry.dfy | `HostRegistry` | `lib/server-manager.ts` |
| dispatcher.dfy | `Dispatcher` | `lib/multi-server-process-manager.ts` |
| config_transfer.dfy | `ConfigTransfer` | the export and import routes |

Three behaviours of the code that its types and its user interface do not suggest; the model follows the code:

- A stop does not lead to `stopped`. A child killed by a signal exits with a null
  code, and `code === 0` is false for null. The record therefore becomes `error`,
  and when `autoRestart` is set an automatic restart is scheduled
  (`RealSupervisor.OnExit`).
- `getServer` and `getServers` strip only `connection` and `lastHeartbeat`.
  Passwords and private keys are returned to the caller (`HostRegistry.GetHost`).
- The remote create keeps only `{id, serverId}`. Reading the process back yields a
  placeholder named `远程进程-<id>`, not what was created
  (`Dispatcher.RemoteCreateForgetsDetails`).

## Model

| member | source | states |
|---|---|---|
| Text.ParseCommand | lib/real-process-manager.ts:92-94 | The executable and arguments, concatenated, are the command's non-space characters. No token contains white space and no argument is empty. The executable is empty exactly when the trimmed command is, and then there are no arguments. |
| Text.Trim | lib/real-process-manager.ts:92 | The result has no leading or trailing white space and is the contiguous middle of the input, starting after the leading white space. |
| Text.TrimCutsSpace | lib/real-process-manager.ts:92 | What `trim()` removes on either side is white space only. |
| Text.TrimKeepsLetters | lib/real-process-manager.ts:92 | `trim()` keeps every non-space character. |
| Text.SplitPiecesHaveNoSpace | lib/real-process-manager.ts:92 | No piece of `split(/\s+/)` contains white space. |
| Text.SplitPiecesNonEmpty | lib/real-process-manager.ts:92 | On a non-empty trimmed string, no piece of the split is empty. |
| Text.SplitKeepsLetters | lib/real-process-manager.ts:92 | The split pieces, concatenated, are exactly the input's non-space characters. |
| Text.SplitJoinRoundTrip | lib/real-process-manager.ts:92 | Non-empty words without white space, joined by white-space runs of any length, split back into exactly those words. |
| Text.ParseJoinedCommand | lib/real-process-manager.ts:92-94 | A command made of words without white space, separated by white-space runs of any length and padded by any white space before and after, parses to its first word as the executable and the other words as the arguments. |
| Text.BlankCommand | lib/real-process-manager.ts:92-94 | A command of white space only parses to an empty executable with no arguments. |
| Text.TrimPadded | lib/real-process-manager.ts:92 | `trim()` of a trimmed non-empty string padded with white space on both sides gives back that string. |
| RealSupervisor.Listing | lib/real-process-manager.ts:49-52 | One process per record, in insertion order, each the record stored under that position's id. |
| RealSupervisor.CreateProcess | lib/real-process-manager.ts:61-80 | The new record is `stopped`, with restartCount 0, no pid, no lastStarted and exactly one log line. Its cwd is the given one when truthy, else `/root`. It has no child and is appended to the order. Every other record is unchanged. |
| RealSupervisor.StartProcess | lib/real-process-manager.ts:82-171 | On a missing or running record: returns false, changes nothing, spawns nothing. Otherwise it spawns the parsed command. On success the record becomes `running` with the pid, lastStarted, the new child and exactly one more log line. If spawn throws, status becomes `error` with one failure line. Configuration, restart count and other records are kept. |
| RealSupervisor.OnOutput | lib/real-process-manager.ts:110-128 | A chunk whose trimmed text is empty changes nothing. Any other chunk appends exactly one line with the stream tag and the trimmed text, and changes nothing else. |
| RealSupervisor.OnExit | lib/real-process-manager.ts:131-152 | Status becomes `stopped` iff the code is 0, and `error` otherwise, including a null code after a signal. The pid and child are cleared. The exit lines are appended. A restart is scheduled iff autoRestart holds and the code is not 0. |
| RealSupervisor.OnChildError | lib/real-process-manager.ts:154-160 | The child's `error` event marks the record `error` and appends one line. It keeps the child and pid. |
| RealSupervisor.StopProcess | lib/real-process-manager.ts:173-202 | Returns false and changes nothing unless the record is `running` with a child. On success it appends one line, arms an escalation for that child and leaves the status `running`. A throwing `kill` logs the failure and returns false. The child is kept in both cases. |
| RealSupervisor.ForceKill | lib/real-process-manager.ts:187-190 | SIGKILL goes to the record's current child. When `kill` returns, one line is appended and the child's `killed` flag becomes set exactly if the signal was delivered (it stays as it was otherwise). When `kill` throws, the record is unchanged. Nothing else changes. |
| RealSupervisor.FireEscalationAsWritten | lib/real-process-manager.ts:186-191 | The 3-second check as written kills iff the record still has a child whose `killed` flag is false, and then kills that current child. Otherwise nothing changes. |
| RealSupervisor.FireEscalation | lib/real-process-manager.ts:186-191 | The corrected check kills iff the record's child is still the one the stop signalled. It never touches a later child. |
| RealSupervisor.RestartProcess | lib/real-process-manager.ts:204-224 | Answers false and changes nothing for an unknown id. Otherwise restartCount grows by exactly 1 and a restart line is the next log line, whatever follows. A record that is not running is started at once, and the answer is whether the spawn succeeded. A running record is sent SIGTERM instead and stays `running` with start refused; its answer is left to the start the settle timer makes later. An escalation is armed exactly when that stop succeeds, for the old child. |
| RealSupervisor.DeleteProcess | lib/real-process-manager.ts:226-240 | Returns false for an unknown id. Otherwise exactly that id is removed and every other record is unchanged. A running record is signalled first, which arms an escalation. |
| RealSupervisor.Snapshot | lib/real-process-manager.ts:35-47 | The saved file has the same ids in the same order, and each entry is the record without its child handle. |
| RealSupervisor.LoadAsWritten | lib/real-process-manager.ts:20-32 | Loading as written restores every saved record unchanged, without a child. |
| RealSupervisor.LoadAsWrittenStrandsRunning | lib/real-process-manager.ts:20-32 | A record saved while running loads as `running` without a child, so it can be neither started nor stopped. |
| RealSupervisor.Reloaded | lib/real-process-manager.ts:20-32 | A corrected reload keeps configuration, logs and restart count, clears the pid, and turns `running` into `stopped`. |
| RealSupervisor.Load | lib/real-process-manager.ts:20-32 | The corrected load restores every saved id in order, and no loaded record is `running`. |
| RealSupervisor.SnapshotLoadRoundTrip | lib/real-process-manager.ts:20-47 | Saving then loading keeps ids, order, configuration, logs and restart counts. |
| RealSupervisor.AsWrittenSparesStubbornChild | lib/real-process-manager.ts:183-191 | After a delivered SIGTERM, the escalation as written never sends SIGKILL, even though the child has not exited. |
| RealSupervisor.EscalationKillsStubbornChild | lib/real-process-manager.ts:183-191 | With the corrected check, a child that is still attached when the escalation fires receives SIGKILL. |
| RealSupervisor.AsWrittenKillsRestartedChild | lib/real-process-manager.ts:186-191 | A restart stops the running child. The child exits, and the start the settle timer makes spawns a new child and succeeds. The escalation timer armed by the stop, firing as written, then SIGKILLs the new child. |
| RealSupervisor.EscalationSparesRestartedChild | lib/real-process-manager.ts:186-191 | With the corrected check, the same sequence leaves the new child alone. |
| RealSupervisor.StepContinues | lib/real-process-manager.ts:61-240 | An event other than a re-create of the same id keeps a surviving record's configuration, never lowers its restart count, and only appends to its logs. This covers the escalation as written and the corrected one. |
| RealSupervisor.RunNoResurrection | lib/real-process-manager.ts:226-240 | An id that is absent stays absent over any run that does not create it, with either escalation check. |
| RealSupervisor.RunContinues | lib/real-process-manager.ts:61-240 | Over any run that does not re-create it, a surviving record keeps its configuration and its earlier logs as a prefix, and its restart count never decreases. Runs may use the escalation as written, the corrected one, or both. |
| RealSupervisor.CoherentControllable | lib/real-process-manager.ts:83-86 | In a coherent table every record can be started or stopped. |
| RealSupervisor.StepCoherent | lib/real-process-manager.ts:82-240 | Every event preserves coherence, including the escalation as written and the corrected one. A coherent record runs only with a child, and any child it has matches its pid and is never attached to a `stopped` record. |
| RealSupervisor.RunCoherent | lib/real-process-manager.ts:82-240 | Coherence holds after any run, with either escalation check. |
| RealSupervisor.LoadCoherent | lib/real-process-manager.ts:20-32 | The corrected load yields a coherent table. |
| SimSupervisor.Initial | lib/process-manager.ts:5-6 | The supervisor starts with no records and no timers, which satisfies its invariant. |
| SimSupervisor.Listing | lib/process-manager.ts:8-10 | One process per record, in insertion order. |
| SimSupervisor.CreateProcess | lib/process-manager.ts:16-33 | The new record is `stopped`, with restartCount 0, no pid and exactly one log line. Other records are unchanged and the invariant is kept for a fresh id. |
| SimSupervisor.StartProcess | lib/process-manager.ts:35-70 | Refused, with no change, on an unknown or running id. Otherwise the record is `running`, its pid is the draw plus 1000 (so in [1000, 66534]), one line is appended and its heartbeat timer is armed. |
| SimSupervisor.StopProcess | lib/process-manager.ts:72-84 | Refused, with no change, unless running. Otherwise the record is `stopped`, exactly one line is appended, the pid is kept and the timer is cleared. |
| SimSupervisor.Tick | lib/process-manager.ts:48-66 | Only an armed timer fires, and only a running record has one. A heartbeat logs one line. A failing one also sets `error`, clears the timer and schedules a restart iff autoRestart. |
| SimSupervisor.RestartProcess | lib/process-manager.ts:86-102 | Fails on an unknown id. Otherwise restartCount grows by exactly 1, a running record is stopped, and nothing else changes until the settle timer fires. |
| SimSupervisor.SettleFires | lib/process-manager.ts:95-99 | The settle timer appends the restart line and then starts the record, which succeeds iff the record is not already running. |
| SimSupervisor.DeleteProcess | lib/process-manager.ts:104-113 | Fails on an unknown id. Otherwise exactly that id is removed and its timer cleared. |
| SimSupervisor.RunStaysGood | lib/process-manager.ts:16-121 | Over any run, exactly the running records have a heartbeat timer, and every running pid is in range. |
| SimSupervisor.NoStaleHeartbeat | lib/process-manager.ts:48-49 | A heartbeat never fires for a record that is not running. |
| HostRegistry.Hosts | lib/server-manager.ts:122-124 | One view per host, in insertion order. |
| HostRegistry.LocalHost | lib/server-manager.ts:38-49 | The seeded host is `local`, online and local. |
| HostRegistry.InitializeLocal | lib/server-manager.ts:35-53 | `local` is inserted only when absent. An existing entry, and the whole registry, is then left untouched. |
| HostRegistry.CreateHost | lib/server-manager.ts:135-156 | The port defaults to 22 when absent or 0, and tags default to `[]`. The status is `offline`, the host is not local, and the given fields are copied. Other hosts are unchanged and the local host stays protected. |
| HostRegistry.OnCreateProbe | lib/server-manager.ts:158-164 | After the create-time probe the host is `online` with lastConnected on success, and `error` on failure. A host deleted meanwhile is not touched. |
| HostRegistry.Merge | lib/server-manager.ts:183 | Each present patch field replaces the host's field. Absent ones, and id, status, isLocal and times, are kept. |
| HostRegistry.MergeIdempotent | lib/server-manager.ts:183 | Applying the same patch twice equals applying it once. |
| HostRegistry.MergeEmpty | lib/server-manager.ts:183 | The empty patch changes nothing. |
| HostRegistry.UpdateHost | lib/server-manager.ts:170-190 | Returns nothing and changes nothing for a missing or local host. Otherwise only that entry is merged, and the local host stays protected. |
| HostRegistry.DeleteHost | lib/server-manager.ts:193-207 | Fails, changing nothing, for a missing or local host. Otherwise exactly that id is removed. |
| HostRegistry.ChooseCredential | lib/server-manager.ts:253-257 | The private key is chosen when truthy, else the password when truthy, else none. |
| HostRegistry.TestConnection | lib/server-manager.ts:210-265 | Fails for an unknown id. A local host succeeds with latency 0. A connection is attempted exactly for a remote host when SSH is available, with the host's address and chosen credential. It succeeds iff the `ready` event came. |
| HostRegistry.Checked | lib/server-manager.ts:98-117 | Only the host's status, heartbeat time and last-connected time can change. It is `online` iff it is local or its probe answered with a successful connection test, `error` iff it is remote and its probe was rejected, and `offline` otherwise. The heartbeat time is set unless the probe was rejected, and lastConnected changes only on a successful remote test, to the time of the pass. |
| HostRegistry.CheckAllHealth | lib/server-manager.ts:97-119 | Every host, and only those, receives its own verdict, in the same order. |
| HostRegistry.HealthIsolated | lib/server-manager.ts:106-116 | A host's verdict depends only on its own probe, so one host's failure changes no other host. |
| HostRegistry.HealthKeepsLocal | lib/server-manager.ts:98-104 | The health pass keeps the local host protected and online. |
| HostRegistry.Snapshot | lib/server-manager.ts:71-83 | The snapshot has the same keys and order as the registry, and no entry holds a credential or heartbeat. |
| HostRegistry.Startup | lib/server-manager.ts:28-68 | A restart loads every saved host unchanged and ensures `local` exists. |
| HostRegistry.RestartForgetsCredentials | lib/server-manager.ts:56-83 | After save and restart a remote host keeps everything except credentials, and its next connection test carries no credential. |
| HostRegistry.InitializeLocalProtects | lib/server-manager.ts:35-53 | Seeding an empty registry makes `local` present, local and protected. |
| Dispatcher.ListProcesses | lib/multi-server-process-manager.ts:160-192 | Every local record comes first, in supervisor order, each tagged. Then come the remote hosts' blocks in registry order. |
| Dispatcher.StubListsLocalOnly | lib/multi-server-process-manager.ts:195-199 | With the stub remote listing, the merged listing is exactly the local records, each tagged, in supervisor order. |
| Dispatcher.FailureIsolated | lib/multi-server-process-manager.ts:178-188 | When one host's listing fails, the remote part is what it would be without that host. |
| Dispatcher.GetProcess | lib/multi-server-process-manager.ts:202-236 | The local record wins. A remote record is found only while its host is registered, else the result is undefined. |
| Dispatcher.Route | lib/multi-server-process-manager.ts:297-306 | Unresolved ids go nowhere. Resolved ones go to the local supervisor iff their serverId is `local`. |
| Dispatcher.CreateProcess | lib/multi-server-process-manager.ts:239-294 | A `local` request is the local supervisor's create, tagged `local`. An unknown host is an error with nothing added. Otherwise exactly `{id, serverId}` is added to the remote table and the result is `stopped`, with restartCount 0 and one line. |
| Dispatcher.RemoteCreateForgetsDetails | lib/multi-server-process-manager.ts:261-294 | A remote process read back after its create is the placeholder, not its name and command. |
| Dispatcher.StartProcess | lib/multi-server-process-manager.ts:297-322 | Unresolved ids fail with no change. Otherwise the request goes to the local supervisor or the remote stub, strictly by the route. |
| Dispatcher.StopProcess | lib/multi-server-process-manager.ts:325-350 | The same routing for stop. |
| Dispatcher.RestartProcess | lib/multi-server-process-manager.ts:353-365 | The same routing for restart. A local restart answers as the supervisor's does, possibly only after its settle timer; a remote one answers whether the remote record exists. |
| Dispatcher.DeleteProcess | lib/multi-server-process-manager.ts:368-381 | Unresolved ids fail. Local ones use the supervisor's delete. A remote delete removes exactly that id and returns true. |
| Dispatcher.OrphanUndeletable | lib/multi-server-process-manager.ts:202-236 | After its host is deleted, a remote record stays in the table but no longer resolves, so deleting it fails. |
| Dispatcher.SnapshotRemote | lib/multi-server-process-manager.ts:55-67 | The snapshot has the same keys and order, and each entry is the record without its connection. |
| Dispatcher.LoadRemote | lib/multi-server-process-manager.ts:40-52 | Loaded records have no connection, with the same keys and order as saved. |
| Dispatcher.RemoteRoundTrip | lib/multi-server-process-manager.ts:40-67 | Save then load loses only the connections. |
| ConfigTransfer.Export | app/api/processes/export/route.ts:4-18 | Version `1.0`, the export time, and one projected entry per record, in listing order and of the same length. |
| ConfigTransfer.Classify | app/api/processes/import/route.ts:35-57 | Each entry is exactly one of imported, skipped, invalid or (for `null`) a crash. It is invalid iff name or command is falsy, and skipped iff its name existed before the import. |
| ConfigTransfer.CreateFrom | app/api/processes/import/route.ts:47-52 | An imported entry creates a record with its name and command, autoRestart true only if given true, and its cwd when truthy. |
| ConfigTransfer.ImportLoop | app/api/processes/import/route.ts:35-58 | Each counter equals the number of entries whose own verdict against the names taken before the loop is that counter's: imported for entries with a new name, skipped for entries whose name was taken, one error per entry without name or command. Together they add up to the number of entries. The loop crashes iff some entry is `null`. |
| ConfigTransfer.Import | app/api/processes/import/route.ts:17-67 | An unparsable body is a 500. A missing, falsy or non-array `processes` is a 400 and creates nothing. Otherwise each counter is the number of entries with that verdict against the names the table held before the request, the counters add up to the number of entries, and a `null` entry makes it a 500. |
| ConfigTransfer.ImportKeepsExisting | app/api/processes/import/route.ts:35-58 | With fresh ids, every record that existed before is untouched. A completed import adds exactly `imported` records. |
| ConfigTransfer.DuplicatesInFileAllImported | app/api/processes/import/route.ts:32-45 | Two entries with the same new name are both imported, because the name set is not updated during the loop. |
| ConfigTransfer.ImportPerEntry | app/api/processes/import/route.ts:35-58 | For any mix of entries, with fresh ids, a completed loop leaves under the id of each imported entry a record carrying that entry's name, command, autoRestart and truthy cwd. It creates no record under the id of a skipped or invalid entry. |
| ConfigTransfer.ImportRecordsEntries | app/api/processes/import/route.ts:32-60 | The same per-entry outcome for a request that gets a 200 answer, judged against the names the table held before the request. |
| ConfigTransfer.ImportAll | app/api/processes/import/route.ts:35-58 | When every entry is importable, all are imported and each new record carries its entry's configuration. |
| ConfigTransfer.ExportImportRoundTrip | app/api/processes/export/route.ts:12-17 | Importing an export into a supervisor that holds none of its names imports everything. The record created for each exported process has that process's name, command, autoRestart and cwd. |

## Left out

- Spawning, signals, `exec('ps ...')`, SSH `connect`/`exec` and the SSH connection cache (`getConnection`, `executeRemoteCommand`) are foreign I/O. Their outcomes are parameters: `SpawnOutcome`, `SignalOutcome`, `ExitInfo`, `SshReply`, `HealthProbe`, `RemoteListing`.
- Timers are not real time. The 2 s auto-restart, the 3 s escalation, the 1 s restart settle and the 30 s heartbeat are separate later events, so any other event may come between a timer being armed and firing. The 10 s connect timeout is one of the outcomes of a connection attempt (`SshReply.TimedOut`).
- HostRegistry.CheckAllHealth: the health pass is one step over the registry as it stood when the pass began. Hosts added, updated or deleted while its probes are awaited are not modelled, and neither is the write of a host deleted meanwhile.
- Dispatcher.RestartProcess: the remote restart's 1 s wait between its stub stop and stub start is not split, so its answer is whether the remote record exists when the restart begins.
- `checkProcessStatus`, `getProcessStats`, `getServerStats`, `getLocalStats` and `getRemoteStats` parse `ps` and `os` output with floating point, so they are not modelled.
- File reads and writes are not modelled. Persistence is modelled only as the snapshot and load projections, and a failed read or write (caught and logged by the source) is not modelled.
- `Object.entries` lists integer-like keys first on load. Ids come from `Math.random().toString(36)` and may be all digits, but the model keeps the saved order.
- Ids and timestamps are parameters. Freshness of ids is a hypothesis of the lemmas that need it, not of the operations.
- Events for a record that was deleted act, in the source, on the detached record object and are lost. The model drops them. So neither escalation timer's SIGKILL to a deleted record's child is modelled: not the corrected timer's, and not the as-written timer's, which finds the detached record still holding its child, with `killed` clear when the delete's SIGTERM was not delivered.
- RealSupervisor.ForceKill: a `kill('SIGKILL')` that throws inside the timer callback is an uncaught exception of the server process. The model records only that the record is left untouched, not what the exception does to the server.
- The `connection` field of a host is never assigned in the registry, so closing it in update and delete is not modelled.
- The HTTP routes for processes and servers, the UI, `destroy()` and `startHeartbeat()` are out of scope.
- HostRegistry.Merge: the update route passes the raw request body to `Object.assign`, which can set any field (even `isLocal` or `status`). The patch is restricted to the fields of a create request.
- HostRegistry.Merge: a JSON `null` in a patch, a request or an import entry is not modelled. Fields are either present with a value of their declared type, or absent.
- ConfigTransfer.Import: all records created by one import share one timestamp. Entries whose `name` or `command` is a non-string JSON value are not modelled.
- ConfigTransfer.Export: exporting is a function of the supervisor's table, so the state is unchanged by construction. No separate lemma states it.
- Dispatcher.StartProcess: the remote start and stop are stubs in the source that return true whenever the remote record exists. They are modelled as such and perform no remote action.

## Findings

| source | as written | input that shows it | evidently intended | confidence | as-written member | corrected member |
|---|---|---|---|---|---|---|
| lib/real-process-manager.ts:186-191 | The escalation sends SIGKILL only if `!childProcess.killed`. Node sets `killed` as soon as SIGTERM is delivered. | A running child that ignores SIGTERM. After a successful stop, `killed` is true, so the 3-second check never sends SIGKILL. | SIGKILL a child that is still attached 3 s after SIGTERM. | not executed | RealSupervisor.AsWrittenSparesStubbornChild | RealSupervisor.EscalationKillsStubbornChild |
| lib/real-process-manager.ts:186-191, 214-223 | The escalation timer reads `process.childProcess` when it fires, not the child it was armed for. | Restart a running process whose child exits on SIGTERM within 1 s. The new child is spawned with `killed` false, and the timer armed by the stop SIGKILLs it 2 s later. | Only the child that was signalled may be SIGKILLed. | not executed | RealSupervisor.AsWrittenKillsRestartedChild | RealSupervisor.EscalationSparesRestartedChild |
| lib/real-process-manager.ts:20-32 | Loading restores the saved `status` and `pid`, but no child handle. | A record saved while `running`, then a server restart. The loaded record is `running` without a child: start refuses it as running and stop refuses it as childless. | Loaded records are not running. | not executed | RealSupervisor.LoadAsWrittenStrandsRunning | RealSupervisor.LoadCoherent |

=== FILE: common.dfy ===
/** Small shared vocabulary: an optional value and JavaScript's `a || b` on strings. */
module Common {

  /** A value that may be absent: `undefined`, or a key missing from a JSON object. */
  datatype Option<+T> = None | Some(value: T)

  /** JavaScript truthiness of an optional string: present and not empty. */
  predicate Truthy(s: Option<string>) {
    s.Some? && s.value != ""
  }

  /** JavaScript's `s || fallback` for an optional string. */
  function OrElse(s: Option<string>, fallback: string): (r: string)
    ensures Truthy(s) ==> r == s.value
    ensures !Truthy(s) ==> r == fallback
  {
    if Truthy(s) then s.value else fallback
  }

  /** The value carried by `o`, or `current` when `o` carries none: one key of
      `Object.assign(target, patch)`. */
  function Override<T>(o: Option<T>, current: T): (r: T)
    ensures o.Some? ==> r == o.value
    ensures o.None? ==> r == current
  {
    if o.Some? then o.value else current
  }
}

=== FILE: config_transfer.dfy ===
/** Configuration export and import (app/api/processes/export/route.ts and
    app/api/processes/import/route.ts): the local supervisor's records projected to
    their configuration, and a JSON document of such entries turned back into
    records. The JSON body is given already parsed. */
module ConfigTransfer {

  import opened Common
  import opened ProcessTypes
  import Keyed
  import RealSupervisor

  const FormatVersion: string := "1.0"

  // ------------------------------------------------------------------ export

  /** One exported process: exactly its configuration. */
  datatype ExportEntry = ExportEntry(name: string, command: string, autoRestart: bool, cwd: Option<string>)

  datatype ExportDoc = ExportDoc(version: string, exportTime: Timestamp, processes: seq<ExportEntry>)

  function Project(p: Process): (e: ExportEntry)
    ensures e.name == p.name && e.command == p.command && e.autoRestart == p.autoRestart && e.cwd == p.cwd
  {
    ExportEntry(p.name, p.command, p.autoRestart, p.cwd)
  }

  /** `GET /api/processes/export`: version 1.0, one entry per record of the supervisor's
      listing, in listing order. */
  function Export(t: RealSupervisor.Table, now: Timestamp): (doc: ExportDoc)
    requires Keyed.Valid(t)
    ensures doc.version == FormatVersion && doc.exportTime == now
    ensures |doc.processes| == |RealSupervisor.Listing(t)| == |t.order|
    ensures forall i :: 0 <= i < |t.order| ==> doc.processes[i] == Project(t.entries[t.order[i]].proc)
  {
    var ps := RealSupervisor.Listing(t);
    ExportDoc(FormatVersion, now, seq(|ps|, i requires 0 <= i < |ps| => Project(ps[i])))
  }

  // ------------------------------------------------------------------ import

  /** One element of the `processes` array: an object with the keys it carries, `null`,
      or any other non-object value. */
  datatype Entry =
    | Object(name: Option<string>, command: Option<string>, autoRestart: Option<bool>, cwd: Option<string>)
    | Null
    | Scalar

  /** The `processes` field of the body: absent or falsy, present but not an array, or an array. */
  datatype ProcessesField = Absent | NotAnArray | Entries(entries: seq<Entry>)

  /** The request body: not parseable as JSON, or JSON `null` (either throws into the
      500 handler); otherwise the value of its `processes` field, which is `Absent` for a
      body that is a JSON number, string or boolean. */
  datatype ImportBody = Unparsable | Body(processes: ProcessesField)

  /** How the loop treats one entry. */
  datatype Verdict = Imported | Skipped | Invalid | Crash

  /** An entry is imported when it has a truthy name and command and its name was not
      in use before the import began; skipped when its name was; invalid when it lacks
      either field. A `null` entry makes the loop throw. */
  function Classify(e: Entry, existing: set<string>): (v: Verdict)
    ensures v == Crash <==> e.Null?
    ensures v == Invalid <==> e.Scalar? || (e.Object? && (!Truthy(e.name) || !Truthy(e.command)))
    ensures v == Skipped <==> e.Object? && Truthy(e.name) && Truthy(e.command) && e.name.value in existing
    ensures v == Imported <==> e.Object? && Truthy(e.name) && Truthy(e.command) && e.name.value !in existing
  {
    match e
    case Null => Crash
    case Scalar => Invalid
    case Object(name, command, _, _) =>
      if !Truthy(name) || !Truthy(command) then Invalid
      else if name.value in existing then Skipped
      else Imported
  }

  /** The message recorded for an invalid entry. */
  datatype ImportIssue = MissingNameOrCommand

  datatype Tally = Tally(imported: nat, skipped: nat, errors: seq<ImportIssue>)

  /** The loop ran to the end, or a `null` entry made it throw after some records were
      already created. */
  datatype LoopResult = Completed(table: RealSupervisor.Table, tally: Tally) | Crashed(table: RealSupervisor.Table)

  function Count(v: Verdict, rest: Tally): (t: Tally)
    ensures t.imported == rest.imported + (if v == Imported then 1 else 0)
    ensures t.skipped == rest.skipped + (if v == Skipped then 1 else 0)
    ensures t.errors == (if v == Invalid then [MissingNameOrCommand] else []) + rest.errors
  {
    match v
    case Imported => rest.(imported := rest.imported + 1)
    case Skipped => rest.(skipped := rest.skipped + 1)
    case Invalid => rest.(errors := [MissingNameOrCommand] + rest.errors)
    case Crash => rest
  }

  /** How many entries of `es` get verdict `v` against the names `existing`: the
      reference the loop's counters are measured against. */
  function Counted(es: seq<Entry>, existing: set<string>, v: Verdict): (n: nat)
    ensures n <= |es|
    decreases |es|
  {
    if es == [] then 0
    else (if Classify(es[0], existing) == v then 1 else 0) + Counted(es[1..], existing, v)
  }

  /** Create the record an imported entry describes, under the fresh id `id`. */
  function CreateFrom(t: RealSupervisor.Table, e: Entry, id: Id, now: Timestamp): (r: RealSupervisor.CreateResult)
    requires Keyed.Valid(t) && e.Object? && Truthy(e.name) && Truthy(e.command)
    ensures Keyed.Valid(r.table)
    ensures r.process.name == e.name.value && r.process.command == e.command.value
    ensures r.process.autoRestart == (e.autoRestart == Some(true))
    ensures Truthy(e.cwd) ==> r.process.cwd == e.cwd
    ensures id in r.table.entries && r.table.entries[id].proc == r.process
    ensures Keyed.SameExcept(t, r.table, id)
    ensures id !in t.entries ==> |r.table.order| == |t.order| + 1
  {
    RealSupervisor.CreateProcess(t, id, now, e.name.value, e.command.value, e.autoRestart == Some(true), e.cwd)
  }

  /** A list whose head is not null holds a null entry exactly when its tail does. */
  lemma NullInTail(es: seq<Entry>)
    requires es != [] && !es[0].Null?
    ensures (exists i :: 0 <= i < |es| && es[i].Null?) <==> (exists i :: 0 <= i < |es[1..]| && es[1..][i].Null?)
  {
    if exists i :: 0 <= i < |es| && es[i].Null? {
      var i :| 0 <= i < |es| && es[i].Null?;
      assert i != 0 && es[1..][i - 1] == es[i];
    }
    if exists i :: 0 <= i < |es[1..]| && es[1..][i].Null? {
      var i :| 0 <= i < |es[1..]| && es[1..][i].Null?;
      assert es[i + 1] == es[1..][i];
    }
  }

  /** The import loop over `es`, where `ids[i]` is the id a record created for `es[i]`
      would get. `existing` is the set of names taken before the loop and is not
      updated by it. */
  function ImportLoop(t: RealSupervisor.Table, es: seq<Entry>, existing: set<string>,
                      ids: seq<Id>, now: Timestamp): (r: LoopResult)
    requires Keyed.Valid(t) && |ids| == |es|
    ensures Keyed.Valid(r.table)
    ensures r.Completed? ==> r.tally.imported + r.tally.skipped + |r.tally.errors| == |es|
    ensures r.Completed? ==>
      && r.tally.imported == Counted(es, existing, Imported)
      && r.tally.skipped == Counted(es, existing, Skipped)
      && |r.tally.errors| == Counted(es, existing, Invalid)
    ensures r.Crashed? <==> exists i :: 0 <= i < |es| && es[i].Null?
    decreases |es|
  {
    if es == [] then Completed(t, Tally(0, 0, []))
    else
      var v := Classify(es[0], existing);
      var t1 := if v == Imported then CreateFrom(t, es[0], ids[0], now).table else t;
      if v == Crash then Crashed(t)
      else
        var rest := ImportLoop(t1, es[1..], existing, ids[1..], now);
        NullInTail(es);
        match rest
        case Crashed(t2) => Crashed(t2)
        case Completed(t2, tally) => Completed(t2, Count(v, tally))
  }

  /** The names of the supervisor's records. */
  function Names(t: RealSupervisor.Table): (ns: set<string>)
    ensures forall n :: n in ns <==> exists k :: k in t.entries && t.entries[k].proc.name == n
  {
    set k | k in t.entries :: t.entries[k].proc.name
  }

  datatype ImportResponse =
    | BadRequest                                             // 400
    | ServerError(table: RealSupervisor.Table)               // 500, after any creations so far
    | Finished(table: RealSupervisor.Table, tally: Tally)    // 200

  /** `POST /api/processes/import`. */
  function Import(t: RealSupervisor.Table, body: ImportBody, ids: seq<Id>, now: Timestamp): (r: ImportResponse)
    requires Keyed.Valid(t)
    requires body.Body? && body.processes.Entries? ==> |ids| == |body.processes.entries|
    ensures body.Unparsable? ==> r == ServerError(t)
    ensures body.Body? && !body.processes.Entries? ==> r == BadRequest
    ensures r.Finished? ==>
      && body.Body? && body.processes.Entries?
      && r.tally.imported + r.tally.skipped + |r.tally.errors| == |body.processes.entries|
      && r.tally.imported == Counted(body.processes.entries, Names(t), Imported)
      && r.tally.skipped == Counted(body.processes.entries, Names(t), Skipped)
      && |r.tally.errors| == Counted(body.processes.entries, Names(t), Invalid)
    ensures body.Body? && body.processes.Entries? ==>
      (r.ServerError? <==> exists i :: 0 <= i < |body.processes.entries| && body.processes.entries[i].Null?)
  {
    match body
    case Unparsable => ServerError(t)
    case Body(Entries(es)) =>
      (match ImportLoop(t, es, Names(t), ids, now)
       case Crashed(t') => ServerError(t')
       case Completed(t', tally) => Finished(t', tally))
    case Body(_) => BadRequest
  }

  // ------------------------------------------------------------------ properties of the loop

  /** Ids the loop can use: pairwise distinct and unused in the table. */
  ghost predicate FreshIds(t: RealSupervisor.Table, ids: seq<Id>) {
    Keyed.Distinct(ids) && forall i :: 0 <= i < |ids| ==> ids[i] !in t.entries
  }

  lemma FreshTail(t: RealSupervisor.Table, t1: RealSupervisor.Table, ids: seq<Id>)
    requires |ids| >= 1 && FreshIds(t, ids)
    requires forall k :: k in t1.entries ==> k in t.entries || k == ids[0]
    ensures FreshIds(t1, ids[1..])
  {
    var tail := ids[1..];
    forall i, j | 0 <= i < j < |tail| ensures tail[i] != tail[j] {
      assert tail[i] == ids[i + 1] && tail[j] == ids[j + 1];
    }
    forall i | 0 <= i < |tail| ensures tail[i] !in t1.entries {
      assert tail[i] == ids[i + 1];
    }
  }

  /** With fresh ids, the loop leaves every record that existed before untouched, and
      a completed loop adds exactly `imported` records. */
  lemma ImportKeepsExisting(t: RealSupervisor.Table, es: seq<Entry>, existing: set<string>,
                            ids: seq<Id>, now: Timestamp)
    requires Keyed.Valid(t) && |ids| == |es| && FreshIds(t, ids)
    ensures var r := ImportLoop(t, es, existing, ids, now);
      && (forall k :: k in t.entries ==> k in r.table.entries && r.table.entries[k] == t.entries[k])
      && (r.Completed? ==> |r.table.order| == |t.order| + r.tally.imported)
  {
    ImportKeepsOld(t, es, existing, ids, now);
    ImportGrows(t, es, existing, ids, now);
  }

  /** The loop never changes or removes a record that existed before it. */
  lemma {:induction false} ImportKeepsOld(t: RealSupervisor.Table, es: seq<Entry>, existing: set<string>,
                                          ids: seq<Id>, now: Timestamp)
    requires Keyed.Valid(t) && |ids| == |es| && FreshIds(t, ids)
    ensures var r := ImportLoop(t, es, existing, ids, now);
      forall k :: k in t.entries ==> k in r.table.entries && r.table.entries[k] == t.entries[k]
    decreases |es|
  {
    if es != [] {
      var v := Classify(es[0], existing);
      if v != Crash {
        var t1 := if v == Imported then CreateFrom(t, es[0], ids[0], now).table else t;
        assert forall k :: k in t1.entries ==> k in t.entries || k == ids[0];
        FreshTail(t, t1, ids);
        ImportKeepsOld(t1, es[1..], existing, ids[1..], now);
      }
    }
  }

  /** With fresh ids, a completed loop lengthens the order by exactly `imported`. */
  lemma {:induction false} ImportGrows(t: RealSupervisor.Table, es: seq<Entry>, existing: set<string>,
                                       ids: seq<Id>, now: Timestamp)
    requires Keyed.Valid(t) && |ids| == |es| && FreshIds(t, ids)
    ensures var r := ImportLoop(t, es, existing, ids, now);
      r.Completed? ==> |r.table.order| == |t.order| + r.tally.imported
    decreases |es|
  {
    if es != [] {
      var v := Classify(es[0], existing);
      if v != Crash {
        var t1 := if v == Imported then CreateFrom(t, es[0], ids[0], now).table else t;
        assert forall k :: k in t1.entries ==> k in t.entries || k == ids[0];
        FreshTail(t, t1, ids);
        ImportGrows(t1, es[1..], existing, ids[1..], now);
      }
    }
  }

  /** Names are checked only against the records that existed before the import: two
      new entries with the same name are both imported. */
  lemma DuplicatesInFileAllImported(t: RealSupervisor.Table, e: Entry, ids: seq<Id>, now: Timestamp)
    requires Keyed.Valid(t) && |ids| == 2
    requires e.Object? && Truthy(e.name) && Truthy(e.command) && e.name.value !in Names(t)
    ensures var r := Import(t, Body(Entries([e, e])), ids, now);
      r.Finished? && r.tally == Tally(2, 0, [])
  {
    var es := [e, e];
    var existing := Names(t);
    assert Classify(e, existing) == Imported;
    var t1 := CreateFrom(t, e, ids[0], now).table;
    var t2 := CreateFrom(t1, e, ids[1], now).table;
    assert es[1..] == [e] && ids[1..] == [ids[1]];
    assert [e][1..] == [] && [ids[1]][1..] == [];
    assert ImportLoop(t2, [], existing, [], now) == Completed(t2, Tally(0, 0, []));
    assert ImportLoop(t1, [e], existing, [ids[1]], now) == Completed(t2, Tally(1, 0, []));
    assert ImportLoop(t, es, existing, ids, now) == Completed(t2, Tally(2, 0, []));
  }

  // ------------------------------------------------------------------ round trip

  /** The body a client sends back when it re-imports an export. */
  function AsBody(doc: ExportDoc): (b: ImportBody)
    ensures b.Body? && b.processes.Entries? && |b.processes.entries| == |doc.processes|
    ensures forall i :: 0 <= i < |doc.processes| ==>
      b.processes.entries[i] == Object(Some(doc.processes[i].name), Some(doc.processes[i].command),
                                       Some(doc.processes[i].autoRestart), doc.processes[i].cwd)
  {
    Body(Entries(seq(|doc.processes|, i requires 0 <= i < |doc.processes| =>
      Object(Some(doc.processes[i].name), Some(doc.processes[i].command),
             Some(doc.processes[i].autoRestart), doc.processes[i].cwd))))
  }

  /** Entries that all describe a complete configuration whose name is not taken. */
  ghost predicate Importable(es: seq<Entry>, existing: set<string>) {
    forall i :: 0 <= i < |es| ==> Classify(es[i], existing) == Imported
  }

  /** The record created for entry `e` under `id` carries `e`'s configuration. */
  ghost predicate Recreated(t: RealSupervisor.Table, e: Entry, id: Id) {
    && e.Object? && id in t.entries
    && Some(t.entries[id].proc.name) == e.name && Some(t.entries[id].proc.command) == e.command
    && t.entries[id].proc.autoRestart == (e.autoRestart == Some(true))
    && (Truthy(e.cwd) ==> t.entries[id].proc.cwd == e.cwd)
  }

  /** When every entry is importable, the loop completes, imports all of them, and the
      record under `ids[i]` carries the configuration of entry `i`. */
  lemma {:induction false} ImportAll(t: RealSupervisor.Table, es: seq<Entry>, existing: set<string>,
                                     ids: seq<Id>, now: Timestamp)
    requires Keyed.Valid(t) && |ids| == |es| && FreshIds(t, ids) && Importable(es, existing)
    ensures var r := ImportLoop(t, es, existing, ids, now);
      && r.Completed? && r.tally == Tally(|es|, 0, [])
      && forall i :: 0 <= i < |es| ==> Recreated(r.table, es[i], ids[i])
    decreases |es|
  {
    if es != [] {
      assert Classify(es[0], existing) == Imported;
      var t1 := CreateFrom(t, es[0], ids[0], now).table;
      assert forall k :: k in t1.entries ==> k in t.entries || k == ids[0];
      FreshTail(t, t1, ids);
      assert Importable(es[1..], existing) by {
        forall i | 0 <= i < |es| - 1 ensures Classify(es[1..][i], existing) == Imported {
          assert es[1..][i] == es[i + 1];
        }
      }
      ImportAll(t1, es[1..], existing, ids[1..], now);
      ImportKeepsExisting(t1, es[1..], existing, ids[1..], now);
      var r := ImportLoop(t, es, existing, ids, now);
      assert Recreated(t1, es[0], ids[0]);
      forall i | 0 <= i < |es| ensures Recreated(r.table, es[i], ids[i]) {
        if i > 0 {
          assert es[1..][i - 1] == es[i] && ids[1..][i - 1] == ids[i];
        }
      }
    }
  }

  /** The loop adds records only under the ids it was given. */
  lemma {:induction false} ImportKeysFrom(t: RealSupervisor.Table, es: seq<Entry>, existing: set<string>,
                                          ids: seq<Id>, now: Timestamp)
    requires Keyed.Valid(t) && |ids| == |es|
    ensures forall k :: k in ImportLoop(t, es, existing, ids, now).table.entries ==> k in t.entries || k in ids
    decreases |es|
  {
    if es != [] {
      var v := Classify(es[0], existing);
      if v != Crash {
        var t1 := if v == Imported then CreateFrom(t, es[0], ids[0], now).table else t;
        ImportKeysFrom(t1, es[1..], existing, ids[1..], now);
        assert forall k :: k in ids[1..] ==> k in ids;
      }
    }
  }

  /** Entry by entry, for any mix of verdicts: when the loop completes, the record under
      `ids[i]` carries the configuration of entry `i` if that entry was imported, and
      there is no record under `ids[i]` if the entry was skipped or invalid. */
  lemma {:induction false} ImportPerEntry(t: RealSupervisor.Table, es: seq<Entry>, existing: set<string>,
                                          ids: seq<Id>, now: Timestamp)
    requires Keyed.Valid(t) && |ids| == |es| && FreshIds(t, ids)
    ensures var r := ImportLoop(t, es, existing, ids, now);
      r.Completed? ==> forall i :: 0 <= i < |es| ==>
        && (Classify(es[i], existing) == Imported ==> Recreated(r.table, es[i], ids[i]))
        && (Classify(es[i], existing) != Imported ==> ids[i] !in r.table.entries)
    decreases |es|
  {
    if es != [] {
      var v := Classify(es[0], existing);
      if v != Crash {
        var t1 := if v == Imported then CreateFrom(t, es[0], ids[0], now).table else t;
        assert forall k :: k in t1.entries ==> k in t.entries || k == ids[0];
        FreshTail(t, t1, ids);
        ImportPerEntry(t1, es[1..], existing, ids[1..], now);
        ImportKeepsExisting(t1, es[1..], existing, ids[1..], now);
        ImportKeysFrom(t1, es[1..], existing, ids[1..], now);
        var r := ImportLoop(t, es, existing, ids, now);
        if r.Completed? {
          HeadEntry(t, t1, r.table, es, existing, ids);
          forall i | 1 <= i < |es|
            ensures Classify(es[i], existing) == Imported ==> Recreated(r.table, es[i], ids[i])
            ensures Classify(es[i], existing) != Imported ==> ids[i] !in r.table.entries
          {
            assert es[1..][i - 1] == es[i] && ids[1..][i - 1] == ids[i];
          }
        }
      }
    }
  }

  /** The first entry's outcome survives the rest of the loop: an imported entry's record
      is kept, and a skipped or invalid entry's id is never used. */
  lemma HeadEntry(t: RealSupervisor.Table, t1: RealSupervisor.Table, u: RealSupervisor.Table,
                  es: seq<Entry>, existing: set<string>, ids: seq<Id>)
    requires |es| >= 1 && |ids| == |es| && FreshIds(t, ids)
    requires Classify(es[0], existing) == Imported ==> Recreated(t1, es[0], ids[0])
    requires Classify(es[0], existing) != Imported ==> t1 == t
    requires forall k :: k in t1.entries ==> k in u.entries && u.entries[k] == t1.entries[k]
    requires forall k :: k in u.entries ==> k in t1.entries || k in ids[1..]
    ensures Classify(es[0], existing) == Imported ==> Recreated(u, es[0], ids[0])
    ensures Classify(es[0], existing) != Imported ==> ids[0] !in u.entries
  {
  }

  /** The import route, entry by entry: a 200 answer leaves each imported entry's record
      under its id and creates nothing for any other entry. */
  lemma ImportRecordsEntries(t: RealSupervisor.Table, es: seq<Entry>, ids: seq<Id>, now: Timestamp)
    requires Keyed.Valid(t) && |ids| == |es| && FreshIds(t, ids)
    ensures var r := Import(t, Body(Entries(es)), ids, now);
      r.Finished? ==> forall i :: 0 <= i < |es| ==>
        && (Classify(es[i], Names(t)) == Imported ==> Recreated(r.table, es[i], ids[i]))
        && (Classify(es[i], Names(t)) != Imported ==> ids[i] !in r.table.entries)
  {
    ImportPerEntry(t, es, Names(t), ids, now);
  }

  /** Records whose name, command and working directory are all set (as every record
      the supervisor creates through the process routes is). */
  ghost predicate Exportable(t: RealSupervisor.Table) {
    forall k :: k in t.entries ==>
      t.entries[k].proc.name != [] && t.entries[k].proc.command != [] && Truthy(t.entries[k].proc.cwd)
  }

  /** The record under `id` has `src`'s name, command, autoRestart and cwd. */
  ghost predicate Copies(t: RealSupervisor.Table, id: Id, src: Process) {
    && id in t.entries
    && t.entries[id].proc.name == src.name && t.entries[id].proc.command == src.command
    && t.entries[id].proc.autoRestart == src.autoRestart && t.entries[id].proc.cwd == src.cwd
  }

  /** Round trip: importing an export of `t` into a supervisor `u` that holds none of
      its names imports every entry, and the record created for the i-th exported
      process has that process's name, command, autoRestart and cwd. */
  lemma ExportImportRoundTrip(t: RealSupervisor.Table, u: RealSupervisor.Table, now: Timestamp,
                              later: Timestamp, ids: seq<Id>)
    requires Keyed.Valid(t) && Keyed.Valid(u) && Exportable(t)
    requires forall k :: k in t.entries ==> t.entries[k].proc.name !in Names(u)
    requires |ids| == |t.order| && FreshIds(u, ids)
    ensures var r := Import(u, AsBody(Export(t, now)), ids, later);
      && r.Finished? && r.tally == Tally(|t.order|, 0, [])
      && forall i :: 0 <= i < |t.order| ==> Copies(r.table, ids[i], t.entries[t.order[i]].proc)
  {
    var body := AsBody(Export(t, now));
    var es := body.processes.entries;
    ExportImportable(t, u, now);
    ImportAll(u, es, Names(u), ids, later);
    var done := ImportLoop(u, es, Names(u), ids, later);
    forall i | 0 <= i < |t.order| ensures Copies(done.table, ids[i], t.entries[t.order[i]].proc) {
      ExportedEntry(t, now, i);
      RecreatedCopies(done.table, t.entries[t.order[i]].proc, es[i], ids[i]);
    }
  }

  /** The i-th entry of the re-imported export describes the i-th record. */
  lemma ExportedEntry(t: RealSupervisor.Table, now: Timestamp, i: nat)
    requires Keyed.Valid(t) && i < |t.order|
    ensures t.order[i] in t.entries
    ensures var p := t.entries[t.order[i]].proc;
      AsBody(Export(t, now)).processes.entries[i] == Object(Some(p.name), Some(p.command), Some(p.autoRestart), p.cwd)
  {
    assert t.order[i] in t.entries;
  }

  /** Every entry of an export of `t` is importable into `u` when `u` holds none of its names. */
  lemma ExportImportable(t: RealSupervisor.Table, u: RealSupervisor.Table, now: Timestamp)
    requires Keyed.Valid(t) && Exportable(t)
    requires forall k :: k in t.entries ==> t.entries[k].proc.name !in Names(u)
    ensures Importable(AsBody(Export(t, now)).processes.entries, Names(u))
  {
    var es := AsBody(Export(t, now)).processes.entries;
    forall i | 0 <= i < |es| ensures Classify(es[i], Names(u)) == Imported {
      ExportedEntry(t, now, i);
    }
  }

  /** A record recreated from the entry of an exported process with a set cwd copies it. */
  lemma RecreatedCopies(table: RealSupervisor.Table, src: Process, e: Entry, id: Id)
    requires e == Object(Some(src.name), Some(src.command), Some(src.autoRestart), src.cwd)
    requires Truthy(src.cwd) && Recreated(table, e, id)
    ensures Copies(table, id, src)
  {
  }
}

=== FILE: dispatcher.dfy ===
/** The multi-host dispatcher (lib/multi-server-process-manager.ts): one view over
    the local supervisor's table and a table of remote process records, each
    remote record naming the registered host it lives on. Lifecycle requests are
    routed by the host a process resolves to. Remote listing and remote start and
    stop are stubs in the source; the listing is an input here. */
module Dispatcher {

  import opened Common
  import opened ProcessTypes
  import Keyed
  import RealSupervisor
  import HostRegistry

  /** A remote process record (`RemoteProcessInfo`); `connected` stands for the
      live `connection` object. */
  datatype RemoteInfo = RemoteInfo(id: Id, serverId: string, remotePid: Option<int>, connected: bool)

  datatype State = State(
    local: RealSupervisor.Table,
    hosts: HostRegistry.Registry,
    remote: Keyed.Store<RemoteInfo>)

  ghost predicate Valid(st: State) {
    Keyed.Valid(st.local) && Keyed.Valid(st.hosts) && Keyed.Valid(st.remote)
  }

  /** A process together with the display name of its host (`ProcessWithServer`). */
  datatype Tagged = Tagged(process: Process, serverName: string)

  /** A local record as the dispatcher shows it: host defaulted to `local`, with the
      local host's display name. */
  function TagLocal(p: Process): (t: Tagged)
    ensures t.process == p.(serverId := Some(HostOf(p)))
    ensures t.serverName == HostRegistry.LocalName
  {
    Tagged(p.(serverId := Some(HostOf(p))), HostRegistry.LocalName)
  }

  // ------------------------------------------------------------------ listing

  /** What asking one remote host for its processes produced. */
  datatype RemoteListing = Fetched(processes: seq<Process>) | FetchFailed

  /** The `getRemoteProcesses` of the source, which always answers with nothing. */
  function StubListing(serverId: string): (l: RemoteListing)
    ensures l == Fetched([])
  {
    Fetched([])
  }

  /** The processes one host contributes to the listing. */
  function HostBlock(h: HostRegistry.Host, listing: string -> RemoteListing): (b: seq<Tagged>)
    ensures h.isLocal || listing(h.id).FetchFailed? ==> b == []
    ensures !h.isLocal && listing(h.id).Fetched? ==>
      && |b| == |listing(h.id).processes|
      && forall i :: 0 <= i < |b| ==> b[i] == Tagged(listing(h.id).processes[i], h.name)
  {
    if h.isLocal then []
    else match listing(h.id)
      case FetchFailed => []
      case Fetched(ps) => seq(|ps|, i requires 0 <= i < |ps| => Tagged(ps[i], h.name))
  }

  /** The remote part of the listing: the hosts' blocks in registry order. */
  function RemoteBlocks(hs: seq<HostRegistry.Host>, listing: string -> RemoteListing): seq<Tagged> {
    if hs == [] then [] else HostBlock(hs[0], listing) + RemoteBlocks(hs[1..], listing)
  }

  /** `getProcesses()`: every local record first, tagged, in supervisor order; then
      each non-local host's processes, in host order. */
  function ListProcesses(st: State, listing: string -> RemoteListing): (ps: seq<Tagged>)
    requires Valid(st)
    ensures |ps| >= |st.local.order|
    ensures forall i :: 0 <= i < |st.local.order| ==>
      RealSupervisor.Lookup(st.local, st.local.order[i]) == Some(ps[i].process.(serverId := st.local.entries[st.local.order[i]].proc.serverId))
      && ps[i] == TagLocal(st.local.entries[st.local.order[i]].proc)
    ensures ps[|st.local.order|..] == RemoteBlocks(HostRegistry.Hosts(st.hosts), listing)
  {
    var locals := RealSupervisor.Listing(st.local);
    seq(|locals|, i requires 0 <= i < |locals| => TagLocal(locals[i]))
      + RemoteBlocks(HostRegistry.Hosts(st.hosts), listing)
  }

  /** With the source's stub, the listing is exactly the local records. */
  lemma StubListsLocalOnly(st: State)
    requires Valid(st)
    ensures ListProcesses(st, StubListing)
         == seq(|st.local.order|, i requires 0 <= i < |st.local.order| =>
                  TagLocal(st.local.entries[st.local.order[i]].proc))
  {
    var hs := HostRegistry.Hosts(st.hosts);
    StubBlocksEmpty(hs);
    var ps := ListProcesses(st, StubListing);
    assert ps == ps[..|st.local.order|] + ps[|st.local.order|..];
  }

  lemma {:induction false} StubBlocksEmpty(hs: seq<HostRegistry.Host>)
    ensures RemoteBlocks(hs, StubListing) == []
  {
    if hs != [] {
      StubBlocksEmpty(hs[1..]);
    }
  }

  /** `hs` without the hosts whose id is `x`. */
  function DropHost(hs: seq<HostRegistry.Host>, x: string): (r: seq<HostRegistry.Host>)
    ensures |r| <= |hs|
    ensures forall h :: h in r <==> h in hs && h.id != x
  {
    if hs == [] then []
    else (if hs[0].id == x then [] else [hs[0]]) + DropHost(hs[1..], x)
  }

  /** One host's failure does not abort the listing: when host `x` fails, the remote
      part is what it would be if `x` were not registered at all. */
  lemma {:induction false} FailureIsolated(hs: seq<HostRegistry.Host>, listing: string -> RemoteListing, x: string)
    ensures RemoteBlocks(hs, y => if y == x then FetchFailed else listing(y))
         == RemoteBlocks(DropHost(hs, x), listing)
  {
    var failing := y => if y == x then FetchFailed else listing(y);
    if hs != [] {
      FailureIsolated(hs[1..], listing, x);
      var h := hs[0];
      if h.id == x {
        assert HostBlock(h, failing) == [];
        assert DropHost(hs, x) == DropHost(hs[1..], x);
      } else {
        assert HostBlock(h, failing) == HostBlock(h, listing);
        assert DropHost(hs, x) == [h] + DropHost(hs[1..], x);
        assert ([h] + DropHost(hs[1..], x))[1..] == DropHost(hs[1..], x);
      }
    }
  }

  // ------------------------------------------------------------------ lookup

  /** The placeholder name of a remote process: `远程进程-<id>`. */
  function RemoteName(id: Id): string {
    "远程进程-" + id
  }

  /** The record `getProcess` fabricates for a remote hit. */
  function RemotePlaceholder(id: Id, serverId: string, now: Timestamp): (p: Process)
    ensures p.id == id && p.serverId == Some(serverId) && p.name == RemoteName(id)
    ensures p.status == Stopped && p.restartCount == 0 && p.logs == [] && !p.autoRestart
    ensures p.pid == None && p.cwd == None && p.createdAt == now
  {
    Process(id, RemoteName(id), "unknown", Stopped, None, now, None, 0, false, [], None, Some(serverId))
  }

  /** `getProcess(id)`: the local table first; then the remote table, whose hit counts
      only while its host is still registered. */
  function GetProcess(st: State, id: Id, now: Timestamp): (r: Option<Tagged>)
    ensures id in st.local.entries ==> r == Some(TagLocal(st.local.entries[id].proc))
    ensures id !in st.local.entries && id in st.remote.entries && st.remote.entries[id].serverId in st.hosts.entries ==>
      var info := st.remote.entries[id];
      r == Some(Tagged(RemotePlaceholder(id, info.serverId, now), st.hosts.entries[info.serverId].name))
    ensures r.None? <==>
      id !in st.local.entries && (id !in st.remote.entries || st.remote.entries[id].serverId !in st.hosts.entries)
  {
    match RealSupervisor.Lookup(st.local, id)
    case Some(p) => Some(TagLocal(p))
    case None =>
      if id in st.remote.entries then
        var info := st.remote.entries[id];
        match HostRegistry.GetHost(st.hosts, info.serverId)
        case Some(h) => Some(Tagged(RemotePlaceholder(id, info.serverId, now), h.name))
        case None => None
      else None
  }

  /** Where a lifecycle request for `id` goes. */
  datatype Target = NotFound | LocalSupervisor | RemoteAdapter

  /** `getProcess` then `process.serverId === 'local'`. */
  function Route(st: State, id: Id): (t: Target)
    ensures t == NotFound <==> GetProcess(st, id, "").None?
    ensures id in st.local.entries ==>
      t == (if HostOf(st.local.entries[id].proc) == LocalServerId then LocalSupervisor else RemoteAdapter)
    ensures id !in st.local.entries && t != NotFound ==>
      (t == LocalSupervisor <==> st.remote.entries[id].serverId == LocalServerId)
  {
    match GetProcess(st, id, "")
    case None => NotFound
    case Some(tagged) => if tagged.process.serverId == Some(LocalServerId) then LocalSupervisor else RemoteAdapter
  }

  // ------------------------------------------------------------------ create

  /** `CreateProcessRequest`. */
  datatype CreateRequest = CreateRequest(name: string, command: string, autoRestart: Option<bool>,
                                         cwd: Option<string>, serverId: string)

  datatype CreateOutcome = Made(state: State, process: Process) | NoSuchServer

  /** `createProcess(request)`. A `local` request is created by the local supervisor
      (an absent `autoRestart` takes its default, false) and returned tagged `local`;
      any other host must be registered, and only `{id, serverId}` is kept for it. */
  function CreateProcess(st: State, id: Id, now: Timestamp, req: CreateRequest): (r: CreateOutcome)
    requires Valid(st)
    ensures r.Made? ==> Valid(r.state) && r.state.hosts == st.hosts
    ensures r.NoSuchServer? <==> req.serverId != LocalServerId && req.serverId !in st.hosts.entries
    ensures req.serverId == LocalServerId ==>
      var c := RealSupervisor.CreateProcess(st.local, id, now, req.name, req.command,
                                            req.autoRestart == Some(true), req.cwd);
      && r == Made(st.(local := c.table), c.process.(serverId := Some(LocalServerId)))
    ensures r.Made? && req.serverId != LocalServerId ==>
      && r.state.local == st.local
      && r.state.remote == Keyed.Put(st.remote, id, RemoteInfo(id, req.serverId, None, false))
      && r.process.id == id && r.process.name == req.name && r.process.command == req.command
      && r.process.status == Stopped && r.process.restartCount == 0 && r.process.pid == None
      && r.process.logs == [LogLine(now, RemoteCreated)]
      && r.process.autoRestart == (req.autoRestart == Some(true))
      && r.process.cwd == req.cwd && r.process.serverId == Some(req.serverId)
  {
    if req.serverId == LocalServerId then
      var c := RealSupervisor.CreateProcess(st.local, id, now, req.name, req.command,
                                            req.autoRestart == Some(true), req.cwd);
      Made(st.(local := c.table), c.process.(serverId := Some(LocalServerId)))
    else if HostRegistry.GetHost(st.hosts, req.serverId).None? then NoSuchServer
    else
      var info := RemoteInfo(id, req.serverId, None, false);
      var p := Process(id, req.name, req.command, Stopped, None, now, None, 0,
                       req.autoRestart == Some(true), [LogLine(now, RemoteCreated)], req.cwd, Some(req.serverId));
      Made(st.(remote := Keyed.Put(st.remote, id, info)), p)
  }

  /** Only `{id, serverId}` of a remote process is kept: reading it back yields the
      placeholder, not the name it was created with. */
  lemma RemoteCreateForgetsDetails(st: State, id: Id, now: Timestamp, later: Timestamp, req: CreateRequest)
    requires Valid(st) && id !in st.local.entries
    requires req.serverId != LocalServerId && req.serverId in st.hosts.entries
    ensures var r := CreateProcess(st, id, now, req);
      && r.Made?
      && GetProcess(r.state, id, later) == Some(Tagged(RemotePlaceholder(id, req.serverId, later),
                                                       st.hosts.entries[req.serverId].name))
  {
  }

  // ------------------------------------------------------------------ lifecycle

  datatype Outcome = Outcome(state: State, ok: bool)

  /** `startProcessRemote`/`stopProcessRemote`: true exactly when the remote record
      exists; nothing is changed. */
  function RemoteStub(st: State, id: Id): (r: Outcome)
    ensures r.state == st && (r.ok <==> id in st.remote.entries)
  {
    Outcome(st, id in st.remote.entries)
  }

  /** `startProcess(id)`. */
  function StartProcess(st: State, id: Id, now: Timestamp, handle: nat, spawn: RealSupervisor.SpawnOutcome): (r: Outcome)
    requires Valid(st)
    ensures Valid(r.state) && r.state.hosts == st.hosts && r.state.remote == st.remote
    ensures Route(st, id) == NotFound ==> r == Outcome(st, false)
    ensures Route(st, id) == LocalSupervisor ==>
      var s := RealSupervisor.StartProcess(st.local, id, now, handle, spawn);
      r == Outcome(st.(local := s.table), s.ok)
    ensures Route(st, id) == RemoteAdapter ==> r == RemoteStub(st, id)
  {
    match Route(st, id)
    case NotFound => Outcome(st, false)
    case LocalSupervisor =>
      var s := RealSupervisor.StartProcess(st.local, id, now, handle, spawn);
      Outcome(st.(local := s.table), s.ok)
    case RemoteAdapter => RemoteStub(st, id)
  }

  /** `stopProcess(id)`. */
  function StopProcess(st: State, id: Id, now: Timestamp, signal: RealSupervisor.SignalOutcome): (r: Outcome)
    requires Valid(st)
    ensures Valid(r.state) && r.state.hosts == st.hosts && r.state.remote == st.remote
    ensures Route(st, id) == NotFound ==> r == Outcome(st, false)
    ensures Route(st, id) == LocalSupervisor ==>
      var s := RealSupervisor.StopProcess(st.local, id, now, signal);
      r == Outcome(st.(local := s.table), s.ok)
    ensures Route(st, id) == RemoteAdapter ==> r == RemoteStub(st, id)
  {
    match Route(st, id)
    case NotFound => Outcome(st, false)
    case LocalSupervisor =>
      var s := RealSupervisor.StopProcess(st.local, id, now, signal);
      Outcome(st.(local := s.table), s.ok)
    case RemoteAdapter => RemoteStub(st, id)
  }

  /** What `restartProcess(id)` has done when it yields; `answer` is `None` while a
      local restart waits for its settle timer (see `RealSupervisor.RestartResult`). */
  datatype RestartOutcome = RestartOutcome(state: State, answer: Option<bool>)

  /** `restartProcess(id)`: the local supervisor's restart, or remote stop, settle, start. */
  function RestartProcess(st: State, id: Id, now: Timestamp, signal: RealSupervisor.SignalOutcome,
                          handle: nat, spawn: RealSupervisor.SpawnOutcome): (r: RestartOutcome)
    requires Valid(st)
    ensures Valid(r.state) && r.state.hosts == st.hosts && r.state.remote == st.remote
    ensures Route(st, id) == NotFound ==> r == RestartOutcome(st, Some(false))
    ensures Route(st, id) == LocalSupervisor ==>
      var s := RealSupervisor.RestartProcess(st.local, id, now, signal, handle, spawn);
      r == RestartOutcome(st.(local := s.table), s.answer)
    ensures Route(st, id) == RemoteAdapter ==> r == RestartOutcome(st, Some(id in st.remote.entries))
  {
    match Route(st, id)
    case NotFound => RestartOutcome(st, Some(false))
    case LocalSupervisor =>
      var s := RealSupervisor.RestartProcess(st.local, id, now, signal, handle, spawn);
      RestartOutcome(st.(local := s.table), s.answer)
    case RemoteAdapter => RestartOutcome(st, Some(RemoteStub(st, id).ok))
  }

  /** `deleteProcess(id)`: the local supervisor's delete, or removal of exactly that
      remote record, which reports success. */
  function DeleteProcess(st: State, id: Id, now: Timestamp, signal: RealSupervisor.SignalOutcome): (r: Outcome)
    requires Valid(st)
    ensures Valid(r.state) && r.state.hosts == st.hosts
    ensures Route(st, id) == NotFound ==> r == Outcome(st, false)
    ensures Route(st, id) == LocalSupervisor ==>
      var d := RealSupervisor.DeleteProcess(st.local, id, now, signal);
      r == Outcome(st.(local := d.table), d.ok)
    ensures Route(st, id) == RemoteAdapter ==>
      && r.ok && r.state.local == st.local
      && r.state.remote.entries == st.remote.entries - {id}
      && r.state.remote.order == Keyed.Without(st.remote.order, id)
  {
    match Route(st, id)
    case NotFound => Outcome(st, false)
    case LocalSupervisor =>
      var d := RealSupervisor.DeleteProcess(st.local, id, now, signal);
      Outcome(st.(local := d.table), d.ok)
    case RemoteAdapter => Outcome(st.(remote := Keyed.Remove(st.remote, id)), true)
  }

  /** Deleting a host does not touch the remote records on it; such an orphaned record
      can then never be deleted, since it no longer resolves. */
  lemma OrphanUndeletable(st: State, id: Id, now: Timestamp, signal: RealSupervisor.SignalOutcome)
    requires Valid(st) && id !in st.local.entries && id in st.remote.entries
    requires st.remote.entries[id].serverId in st.hosts.entries
    ensures var d := HostRegistry.DeleteHost(st.hosts, st.remote.entries[id].serverId);
      var st' := st.(hosts := d.registry);
      d.ok ==> id in st'.remote.entries && DeleteProcess(st', id, now, signal) == Outcome(st', false)
  {
  }

  // ------------------------------------------------------------------ persistence

  /** A remote record as `saveRemoteProcesses()` writes it: without the connection. */
  datatype SavedRemote = SavedRemote(id: Id, serverId: string, remotePid: Option<int>)

  function SnapshotRemote(st: State): (s: Keyed.Store<SavedRemote>)
    requires Valid(st)
    ensures Keyed.Valid(s) && s.order == st.remote.order && s.entries.Keys == st.remote.entries.Keys
    ensures forall k :: k in st.remote.entries ==>
      var info := st.remote.entries[k];
      s.entries[k] == SavedRemote(info.id, info.serverId, info.remotePid)
  {
    Keyed.MapValues(st.remote, (info: RemoteInfo) => SavedRemote(info.id, info.serverId, info.remotePid))
  }

  /** Loading a saved remote record brings it back without a connection. */
  function LoadRemote(saved: Keyed.Store<SavedRemote>): (s: Keyed.Store<RemoteInfo>)
    requires Keyed.Valid(saved)
    ensures Keyed.Valid(s) && s.order == saved.order && s.entries.Keys == saved.entries.Keys
    ensures forall k :: k in s.entries ==> !s.entries[k].connected
  {
    Keyed.MapValues(saved, (r: SavedRemote) => RemoteInfo(r.id, r.serverId, r.remotePid, false))
  }

  /** Saving and loading the remote table loses only the connections. */
  lemma RemoteRoundTrip(st: State)
    requires Valid(st)
    ensures var back := LoadRemote(SnapshotRemote(st));
      && back.order == st.remote.order && back.entries.Keys == st.remote.entries.Keys
      && forall k :: k in back.entries ==> back.entries[k] == st.remote.entries[k].(connected := false)
  {
  }
}

=== FILE: host_registry.dfy ===
/** The host registry (lib/server-manager.ts): a keyed table of SSH hosts with one
    protected entry, `local`, standing for this machine. Connection tests and the
    30-second health pass are driven by probe outcomes supplied as inputs. */
module HostRegistry {

  import opened Common
  import Keyed
  import ProcessTypes

  type Timestamp = ProcessTypes.Timestamp

  const DefaultPort: int := 22
  /** The SSH `readyTimeout` of a connection attempt, in milliseconds. */
  const ConnectTimeoutMs: nat := 10000

  const LocalName: string := "本地服务器"
  const LocalDescription: string := "本地服务器（当前系统）"

  datatype HostStatus = Online | Offline | Connecting | Error

  /** A host record (the `Server` interface plus the in-memory `lastHeartbeat`).
      `isLocal` is the protection flag. */
  datatype Host = Host(
    id: string,
    name: string,
    host: string,
    port: int,
    username: string,
    password: Option<string>,
    privateKey: Option<string>,
    status: HostStatus,
    lastConnected: Option<Timestamp>,
    createdAt: Timestamp,
    description: Option<string>,
    tags: Option<seq<string>>,
    isLocal: bool,
    lastHeartbeat: Option<Timestamp>)

  type Registry = Keyed.Store<Host>

  /** The registry has the local entry, it is the only entry flagged local, and every
      entry is stored under its own id. */
  ghost predicate Protected(r: Registry) {
    && Keyed.Valid(r)
    && ProcessTypes.LocalServerId in r.entries
    && (forall k :: k in r.entries ==> (r.entries[k].isLocal <==> k == ProcessTypes.LocalServerId))
    && (forall k :: k in r.entries ==> r.entries[k].id == k)
  }

  // ------------------------------------------------------------------ reads

  /** The record as `getServer`/`getServers` return it: without the heartbeat time. */
  function View(h: Host): (v: Host)
    ensures v.lastHeartbeat == None
    ensures v == h.(lastHeartbeat := None)
  {
    h.(lastHeartbeat := None)
  }

  /** `getServer(id)`. */
  function GetHost(r: Registry, id: string): (v: Option<Host>)
    ensures v.Some? <==> id in r.entries
    ensures v.Some? ==> v.value == View(r.entries[id])
  {
    if id in r.entries then Some(View(r.entries[id])) else None
  }

  /** `getServers()`: every record, in insertion order. */
  function Hosts(r: Registry): (vs: seq<Host>)
    requires Keyed.Valid(r)
    ensures |vs| == |r.order|
    ensures forall i :: 0 <= i < |vs| ==> GetHost(r, r.order[i]) == Some(vs[i])
  {
    seq(|r.order|, i requires 0 <= i < |r.order| => View(r.entries[r.order[i]]))
  }

  // ------------------------------------------------------------------ local entry

  function LocalHost(now: Timestamp): (h: Host)
    ensures h.id == ProcessTypes.LocalServerId && h.isLocal && h.status == Online
  {
    Host(ProcessTypes.LocalServerId, LocalName, "localhost", DefaultPort, "root", None, None, Online,
         None, now, Some(LocalDescription), Some(["local", "default"]), true, None)
  }

  /** `initializeLocalServer()`: seed the local entry when it is absent; a present
      entry is left exactly as it is. */
  function InitializeLocal(r: Registry, now: Timestamp): (r': Registry)
    requires Keyed.Valid(r)
    ensures Keyed.Valid(r') && ProcessTypes.LocalServerId in r'.entries
    ensures ProcessTypes.LocalServerId in r.entries ==> r' == r
    ensures ProcessTypes.LocalServerId !in r.entries ==>
      && r'.entries == r.entries[ProcessTypes.LocalServerId := LocalHost(now)]
      && r'.order == r.order + [ProcessTypes.LocalServerId]
  {
    if ProcessTypes.LocalServerId in r.entries then r
    else
      var r' := Keyed.Put(r, ProcessTypes.LocalServerId, LocalHost(now));
      assert r'.entries == r.entries[ProcessTypes.LocalServerId := LocalHost(now)];
      r'
  }

  // ------------------------------------------------------------------ create, update, delete

  /** `CreateServerRequest`. A missing or zero port and missing tags take defaults. */
  datatype CreateRequest = CreateRequest(
    name: string, host: string, port: Option<int>, username: string,
    password: Option<string>, privateKey: Option<string>,
    description: Option<string>, tags: Option<seq<string>>)

  datatype Created = Created(registry: Registry, host: Host)

  /** `createServer(request)`: a new remote entry, offline until its first probe. */
  function CreateHost(r: Registry, id: string, now: Timestamp, req: CreateRequest): (c: Created)
    requires Keyed.Valid(r)
    ensures Keyed.Valid(c.registry)
    ensures c.host.id == id && c.host.name == req.name && c.host.host == req.host
    ensures c.host.username == req.username && c.host.description == req.description
    ensures c.host.password == req.password && c.host.privateKey == req.privateKey
    ensures req.port.Some? && req.port.value != 0 ==> c.host.port == req.port.value
    ensures req.port.None? || req.port.value == 0 ==> c.host.port == DefaultPort
    ensures c.host.tags == Some(if req.tags.Some? then req.tags.value else [])
    ensures c.host.status == Offline && !c.host.isLocal && c.host.createdAt == now
    ensures c.host.lastConnected == None
    ensures GetHost(c.registry, id) == Some(c.host)
    ensures Keyed.SameExcept(r, c.registry, id)
    ensures id !in r.entries ==> c.registry.order == r.order + [id]
    ensures Protected(r) && id !in r.entries ==> Protected(c.registry)
  {
    var port := if req.port.Some? && req.port.value != 0 then req.port.value else DefaultPort;
    var tags := if req.tags.Some? then req.tags.value else [];
    var h := Host(id, req.name, req.host, port, req.username, req.password, req.privateKey,
                  Offline, None, now, req.description, Some(tags), false, None);
    Created(Keyed.Put(r, id, h), h)
  }

  /** The first connection test after `createServer`: success brings the host online
      and records the creation time as its last connection; failure marks it `error`
      (where the health pass would say `offline`). */
  function OnCreateProbe(r: Registry, id: string, createdAt: Timestamp, success: bool): (r': Registry)
    requires Keyed.Valid(r)
    ensures Keyed.Valid(r') && r'.order == r.order && Keyed.SameExcept(r, r', id)
    ensures id !in r.entries ==> r' == r
    ensures id in r.entries ==>
      && id in r'.entries
      && r'.entries[id].status == (if success then Online else Error)
      && r'.entries[id].lastConnected == (if success then Some(createdAt) else r.entries[id].lastConnected)
      && r'.entries[id] == r.entries[id].(status := r'.entries[id].status, lastConnected := r'.entries[id].lastConnected)
    ensures Protected(r) && (id in r.entries ==> !r.entries[id].isLocal) ==> Protected(r')
  {
    if id !in r.entries then r
    else
      var h := r.entries[id];
      var h' := if success then h.(status := Online, lastConnected := Some(createdAt)) else h.(status := Error);
      Keyed.Put(r, id, h')
  }

  /** `Partial<CreateServerRequest>`: `None` is a key the patch does not carry. */
  datatype Patch = Patch(
    name: Option<string>, host: Option<string>, port: Option<int>, username: Option<string>,
    password: Option<string>, privateKey: Option<string>,
    description: Option<string>, tags: Option<seq<string>>)

  /** `Object.assign(server, updates)`: every key the patch carries replaces the field. */
  function Merge(h: Host, p: Patch): (h': Host)
    ensures h'.id == h.id && h'.status == h.status && h'.isLocal == h.isLocal
    ensures h'.createdAt == h.createdAt && h'.lastConnected == h.lastConnected
    ensures h'.lastHeartbeat == h.lastHeartbeat
    ensures h'.name == (if p.name.Some? then p.name.value else h.name)
    ensures h'.host == (if p.host.Some? then p.host.value else h.host)
    ensures h'.port == (if p.port.Some? then p.port.value else h.port)
    ensures h'.username == (if p.username.Some? then p.username.value else h.username)
    ensures h'.password == (if p.password.Some? then p.password else h.password)
    ensures h'.privateKey == (if p.privateKey.Some? then p.privateKey else h.privateKey)
    ensures h'.description == (if p.description.Some? then p.description else h.description)
    ensures h'.tags == (if p.tags.Some? then p.tags else h.tags)
  {
    h.(name := Override(p.name, h.name),
       host := Override(p.host, h.host),
       port := Override(p.port, h.port),
       username := Override(p.username, h.username),
       password := if p.password.Some? then p.password else h.password,
       privateKey := if p.privateKey.Some? then p.privateKey else h.privateKey,
       description := if p.description.Some? then p.description else h.description,
       tags := if p.tags.Some? then p.tags else h.tags)
  }

  /** Applying the same patch twice is the same as applying it once. */
  lemma MergeIdempotent(h: Host, p: Patch)
    ensures Merge(Merge(h, p), p) == Merge(h, p)
  {
  }

  /** The empty patch changes nothing. */
  lemma MergeEmpty(h: Host)
    ensures Merge(h, Patch(None, None, None, None, None, None, None, None)) == h
  {
  }

  datatype Updated = Updated(registry: Registry, host: Option<Host>)

  /** `updateServer(id, updates)`: refused (null) for a missing or local host;
      otherwise the patch is merged into that entry only. The connection test it
      starts does not change the record. */
  function UpdateHost(r: Registry, id: string, p: Patch): (u: Updated)
    requires Keyed.Valid(r)
    ensures Keyed.Valid(u.registry) && u.registry.order == r.order
    ensures u.host.None? <==> id !in r.entries || r.entries[id].isLocal
    ensures u.host.None? ==> u.registry == r
    ensures u.host.Some? ==>
      && u.registry.entries == r.entries[id := Merge(r.entries[id], p)]
      && u.host == GetHost(u.registry, id)
    ensures Protected(r) ==> Protected(u.registry)
  {
    if id !in r.entries || r.entries[id].isLocal then Updated(r, None)
    else
      var h := Merge(r.entries[id], p);
      var r' := Keyed.Put(r, id, h);
      assert r'.entries == r.entries[id := h];
      Updated(r', Some(View(h)))
  }

  datatype Deleted = Deleted(registry: Registry, ok: bool)

  /** `deleteServer(id)`: refused for a missing or local host; otherwise exactly that
      entry is removed. */
  function DeleteHost(r: Registry, id: string): (d: Deleted)
    requires Keyed.Valid(r)
    ensures Keyed.Valid(d.registry)
    ensures d.ok <==> id in r.entries && !r.entries[id].isLocal
    ensures !d.ok ==> d.registry == r
    ensures d.ok ==> d.registry.entries == r.entries - {id} && d.registry.order == Keyed.Without(r.order, id)
    ensures Protected(r) ==> Protected(d.registry)
  {
    if id !in r.entries || r.entries[id].isLocal then Deleted(r, false)
    else Deleted(Keyed.Remove(r, id), true)
  }

  // ------------------------------------------------------------------ connection test

  datatype Credential = KeyCredential(key: string) | PasswordCredential(password: string) | NoCredential

  /** The credential handed to SSH: the private key when it is truthy, else the
      password when it is truthy, else none. */
  function ChooseCredential(h: Host): (c: Credential)
    ensures Truthy(h.privateKey) ==> c == KeyCredential(h.privateKey.value)
    ensures !Truthy(h.privateKey) && Truthy(h.password) ==> c == PasswordCredential(h.password.value)
    ensures !Truthy(h.privateKey) && !Truthy(h.password) ==> c == NoCredential
  {
    if Truthy(h.privateKey) then KeyCredential(h.privateKey.value)
    else if Truthy(h.password) then PasswordCredential(h.password.value)
    else NoCredential
  }

  /** The configuration passed to `conn.connect`. */
  datatype SshConfig = SshConfig(host: string, port: int, username: string, credential: Credential, readyTimeout: nat)

  /** How an SSH attempt ended: whichever of `ready`, `error` and the 10-second timer
      came first, or `connect` threw. */
  datatype SshReply = Ready(latency: nat) | ErrorEvent(message: string) | TimedOut | ConnectThrew(message: string)

  datatype TestMessage =
    | UnknownHost | LocalOk | NoSshClient | Connected | Timeout
    | ConnectFailed(message: string) | ConfigError(message: string)

  datatype ConnectionTest = ConnectionTest(success: bool, message: TestMessage, latency: Option<nat>, attempt: Option<SshConfig>)

  /** `testConnection(id)`, with `sshAvailable` standing for whether the SSH library
      loaded and `reply` for how the attempt ended. Only a remote host with SSH
      available is actually contacted, with the chosen credential. */
  function TestConnection(r: Registry, id: string, sshAvailable: bool, reply: SshReply): (t: ConnectionTest)
    ensures id !in r.entries ==> t == ConnectionTest(false, UnknownHost, None, None)
    ensures id in r.entries && r.entries[id].isLocal ==> t == ConnectionTest(true, LocalOk, Some(0), None)
    ensures t.attempt.Some? <==> id in r.entries && !r.entries[id].isLocal && sshAvailable
    ensures t.attempt.Some? ==>
      var h := r.entries[id];
      t.attempt.value == SshConfig(h.host, h.port, h.username, ChooseCredential(h), ConnectTimeoutMs)
    ensures t.success <==> id in r.entries && (r.entries[id].isLocal || (sshAvailable && reply.Ready?))
    ensures t.latency.Some? <==> t.success
  {
    if id !in r.entries then ConnectionTest(false, UnknownHost, None, None)
    else
      var h := r.entries[id];
      if h.isLocal then ConnectionTest(true, LocalOk, Some(0), None)
      else if !sshAvailable then ConnectionTest(false, NoSshClient, None, None)
      else
        var config := SshConfig(h.host, h.port, h.username, ChooseCredential(h), ConnectTimeoutMs);
        match reply
        case Ready(latency) => ConnectionTest(true, Connected, Some(latency), Some(config))
        case ErrorEvent(message) => ConnectionTest(false, ConnectFailed(message), None, Some(config))
        case TimedOut => ConnectionTest(false, Timeout, None, Some(config))
        case ConnectThrew(message) => ConnectionTest(false, ConfigError(message), None, Some(config))
  }

  // ------------------------------------------------------------------ health pass

  /** What awaiting one host's connection test produced: a result, or a rejection. */
  datatype HealthProbe = Answered(reply: SshReply) | Rejected

  /** The health pass's verdict on one host: only its status, heartbeat time and
      last-connected time can change. It is online exactly when it is local or its
      probe answered with a successful connection, in error exactly when its probe
      was rejected, and offline otherwise. */
  function Checked(r: Registry, k: string, now: Timestamp, sshAvailable: bool, probe: HealthProbe): (h': Host)
    requires k in r.entries
    ensures var h := r.entries[k];
      var ok := probe.Answered? && TestConnection(r, k, sshAvailable, probe.reply).success;
      && h' == h.(status := h'.status, lastHeartbeat := h'.lastHeartbeat, lastConnected := h'.lastConnected)
      && (h'.status == Online <==> h.isLocal || ok)
      && (h'.status == Error <==> !h.isLocal && probe.Rejected?)
      && (h'.status == Offline <==> !h.isLocal && probe.Answered? && !ok)
      && (h'.lastHeartbeat == h.lastHeartbeat || h'.lastHeartbeat == Some(now))
      && (h.isLocal || probe.Answered? ==> h'.lastHeartbeat == Some(now))
      && (h'.lastConnected != h.lastConnected ==> !h.isLocal && ok && h'.lastConnected == Some(now))
      && (!h.isLocal && ok ==> h'.lastConnected == Some(now))
  {
    var h := r.entries[k];
    if h.isLocal then h.(status := Online, lastHeartbeat := Some(now))
    else match probe
      case Rejected => h.(status := Error)
      case Answered(reply) =>
        if TestConnection(r, k, sshAvailable, reply).success
        then h.(status := Online, lastHeartbeat := Some(now), lastConnected := Some(now))
        else h.(status := Offline, lastHeartbeat := Some(now))
  }

  /** `checkAllServersHealth()`: every host is visited; local hosts come online, remote
      hosts take the verdict of their own probe; one snapshot is written at the end. */
  function CheckAllHealth(r: Registry, now: Timestamp, sshAvailable: bool, probe: string -> HealthProbe): (r': Registry)
    requires Keyed.Valid(r)
    ensures Keyed.Valid(r') && r'.order == r.order && r'.entries.Keys == r.entries.Keys
    ensures forall k :: k in r.entries ==> r'.entries[k] == Checked(r, k, now, sshAvailable, probe(k))
  {
    Keyed.Store(r.order, map k | k in r.entries :: Checked(r, k, now, sshAvailable, probe(k)))
  }

  /** A host's verdict depends on its own probe only: one host's failure, rejection
      included, leaves every other host's outcome as it would have been. */
  lemma HealthIsolated(r: Registry, now: Timestamp, sshAvailable: bool,
                       p1: string -> HealthProbe, p2: string -> HealthProbe, k: string)
    requires Keyed.Valid(r) && k in r.entries && p1(k) == p2(k)
    ensures CheckAllHealth(r, now, sshAvailable, p1).entries[k] == CheckAllHealth(r, now, sshAvailable, p2).entries[k]
  {
  }

  /** After a health pass the registry is still protected and the local host is online. */
  lemma HealthKeepsLocal(r: Registry, now: Timestamp, sshAvailable: bool, probe: string -> HealthProbe)
    requires Protected(r)
    ensures Protected(CheckAllHealth(r, now, sshAvailable, probe))
    ensures CheckAllHealth(r, now, sshAvailable, probe).entries[ProcessTypes.LocalServerId].status == Online
  {
  }

  // ------------------------------------------------------------------ persistence

  /** A record as `saveServers()` writes it: without credentials or heartbeat time. */
  function Saved(h: Host): (s: Host)
    ensures s.password == None && s.privateKey == None && s.lastHeartbeat == None
    ensures s == h.(password := None, privateKey := None, lastHeartbeat := None)
  {
    h.(password := None, privateKey := None, lastHeartbeat := None)
  }

  /** `saveServers()`: the same keys in the same order, every record stripped of secrets. */
  function Snapshot(r: Registry): (s: Registry)
    requires Keyed.Valid(r)
    ensures Keyed.Valid(s) && s.order == r.order && s.entries.Keys == r.entries.Keys
    ensures forall k :: k in s.entries ==>
      s.entries[k].password == None && s.entries[k].privateKey == None && s.entries[k].lastHeartbeat == None
    ensures forall k :: k in r.entries ==> s.entries[k] == Saved(r.entries[k])
  {
    Keyed.MapValues(r, Saved)
  }

  /** The constructor: load the saved records, then seed the local entry. */
  function Startup(saved: Registry, now: Timestamp): (r: Registry)
    requires Keyed.Valid(saved)
    ensures Keyed.Valid(r) && ProcessTypes.LocalServerId in r.entries
    ensures forall k :: k in saved.entries ==> k in r.entries && r.entries[k] == saved.entries[k]
  {
    InitializeLocal(saved, now)
  }

  /** Saving and restarting keeps the protection, and every remote host's
      configuration apart from its credentials; after it, a connection test of a
      remote host is attempted without any credential. */
  lemma RestartForgetsCredentials(r: Registry, now: Timestamp, id: string, reply: SshReply)
    requires Protected(r) && id in r.entries && !r.entries[id].isLocal
    ensures var r' := Startup(Snapshot(r), now);
      && Protected(r')
      && r'.entries[id] == Saved(r.entries[id])
      && TestConnection(r', id, true, reply).attempt.value.credential == NoCredential
  {
  }

  lemma InitializeLocalProtects(now: Timestamp)
    ensures Protected(InitializeLocal(Keyed.Empty(), now))
  {
  }
}

=== FILE: keyed.dfy ===
/** An insertion-ordered keyed collection: the model of a JavaScript `Map<string, V>`.
    Iteration visits keys in the order they were first inserted; overwriting a key
    keeps its position; deleting a key removes it from the order. */
module Keyed {

  import opened Common

  datatype Store<V> = Store(order: seq<string>, entries: map<string, V>)

  /** No key occurs twice in `ks`. */
  ghost predicate Distinct(ks: seq<string>) {
    forall i, j :: 0 <= i < j < |ks| ==> ks[i] != ks[j]
  }

  /** Every key appears once in `order`, and `order` lists exactly the keys of `entries`. */
  ghost predicate Valid<V>(s: Store<V>) {
    && Distinct(s.order)
    && (forall k :: k in s.entries <==> k in s.order)
  }

  /** `a` and `b` hold the same keys with the same values, except possibly at `k`. */
  ghost predicate SameExcept<V>(a: Store<V>, b: Store<V>, k: string) {
    forall x :: x != k ==>
      && (x in a.entries <==> x in b.entries)
      && (x in a.entries ==> a.entries[x] == b.entries[x])
  }

  function Empty<V>(): (s: Store<V>)
    ensures Valid(s) && s.entries == map[] && s.order == []
  {
    Store([], map[])
  }

  /** `map.set(k, v)`. */
  function Put<V>(s: Store<V>, k: string, v: V): (r: Store<V>)
    requires Valid(s)
    ensures Valid(r)
    ensures k in r.entries && r.entries[k] == v
    ensures SameExcept(s, r, k)
    ensures k in s.entries ==> r.order == s.order
    ensures k !in s.entries ==> r.order == s.order + [k]
  {
    if k in s.entries then Store(s.order, s.entries[k := v])
    else Store(s.order + [k], s.entries[k := v])
  }

  /** `ks` with every occurrence of `k` removed, the rest in order. */
  function Without(ks: seq<string>, k: string): (r: seq<string>)
    ensures forall x :: x in r <==> x in ks && x != k
    ensures |r| <= |ks|
  {
    if ks == [] then []
    else (if ks[0] == k then [] else [ks[0]]) + Without(ks[1..], k)
  }

  lemma {:induction false} WithoutDistinct(ks: seq<string>, k: string)
    requires Distinct(ks)
    ensures Distinct(Without(ks, k))
  {
    if ks != [] {
      var tail := ks[1..];
      assert Distinct(tail) by {
        forall i, j | 0 <= i < j < |tail| ensures tail[i] != tail[j] {
          assert tail[i] == ks[i + 1] && tail[j] == ks[j + 1];
        }
      }
      WithoutDistinct(tail, k);
      var rest := Without(tail, k);
      assert ks[0] !in tail by {
        forall i | 0 <= i < |tail| ensures tail[i] != ks[0] {
          assert tail[i] == ks[i + 1];
        }
      }
      assert ks[0] !in rest;
      var head := if ks[0] == k then [] else [ks[0]];
      var r := head + rest;
      assert r == Without(ks, k);
      forall i, j | 0 <= i < j < |r| ensures r[i] != r[j] {
        if head == [] {
          assert r[i] == rest[i] && r[j] == rest[j];
        } else if i == 0 {
          assert r[j] == rest[j - 1];
          assert r[j] in rest;
        } else {
          assert r[i] == rest[i - 1] && r[j] == rest[j - 1];
        }
      }
    }
  }

  /** `map.delete(k)`. */
  function Remove<V>(s: Store<V>, k: string): (r: Store<V>)
    requires Valid(s)
    ensures Valid(r)
    ensures k !in r.entries
    ensures r.entries == s.entries - {k}
    ensures SameExcept(s, r, k)
    ensures r.order == Without(s.order, k)
  {
    WithoutDistinct(s.order, k);
    Store(Without(s.order, k), s.entries - {k})
  }

  /** Removing `k` forgets whatever was stored under it. */
  lemma RemoveForgets<V>(a: Store<V>, b: Store<V>, k: string)
    requires Valid(a) && Valid(b) && SameExcept(a, b, k) && a.order == b.order
    ensures Remove(a, k) == Remove(b, k)
  {
    assert a.entries - {k} == b.entries - {k};
  }

  function Get<V>(s: Store<V>, k: string): (r: Option<V>)
    ensures r.Some? <==> k in s.entries
    ensures r.Some? ==> r.value == s.entries[k]
  {
    if k in s.entries then Some(s.entries[k]) else None
  }

  /** `Array.from(map.values())`: the values in insertion order. */
  function Values<V>(s: Store<V>): (vs: seq<V>)
    requires Valid(s)
    ensures |vs| == |s.order|
    ensures forall i :: 0 <= i < |s.order| ==> s.order[i] in s.entries && vs[i] == s.entries[s.order[i]]
  {
    seq(|s.order|, i requires 0 <= i < |s.order| => s.entries[s.order[i]])
  }

  /** The same keys in the same order, each value passed through `f`. */
  function MapValues<V, W>(s: Store<V>, f: V -> W): (r: Store<W>)
    requires Valid(s)
    ensures Valid(r)
    ensures r.order == s.order
    ensures r.entries.Keys == s.entries.Keys
    ensures forall k :: k in s.entries ==> r.entries[k] == f(s.entries[k])
  {
    Store(s.order, map k | k in s.entries :: f(s.entries[k]))
  }
}

=== FILE: process_types.dfy ===
/** The process record shared by both supervisors, the dispatcher and the
    configuration routes (the `Process` interface of types/process.ts). */
module ProcessTypes {

  import opened Common

  type Id = string

  /** An ISO-8601 timestamp, supplied by the caller in place of the clock. */
  type Timestamp = string

  /** The host id that means "this machine". */
  const LocalServerId: string := "local"

  datatype Status = Stopped | Running | Error

  datatype Stream = Stdout | Stderr

  /** What one log line reports. The source writes these as fixed Chinese phrases
      after the timestamp; the model keeps the phrase's meaning and its data. */
  datatype LogEvent =
    | Created                          // process created
    | RemoteCreated                    // remote process created
    | Started(pid: Option<int>)        // started, with the pid the spawn reported
    | Output(stream: Stream, text: string)
    | KilledBySignal(signal: string)   // terminated by a signal
    | ExitedWith(code: Option<int>)    // exited with a code (`null` when there is none)
    | AutoRestartPending               // abnormal exit, restart in 2 seconds
    | SpawnFailed(message: string)     // the child's `error` event
    | StartFailed(message: string)     // `spawn` threw
    | TermSent                         // SIGTERM sent
    | StopFailed(message: string)      // `kill` threw
    | ForceKilled                      // SIGKILL sent by the escalation timer
    | RestartBegun                     // restart begins
    | SimStarted(simPid: int)          // simulated start with a made-up pid
    | SimStopped
    | SimHeartbeat                     // simulated "still running" line
    | SimFailed                        // simulated failure
    | SimRestarting

  datatype LogLine = LogLine(at: Timestamp, event: LogEvent)

  datatype Process = Process(
    id: Id,
    name: string,
    command: string,
    status: Status,
    pid: Option<int>,
    createdAt: Timestamp,
    lastStarted: Option<Timestamp>,
    restartCount: nat,
    autoRestart: bool,
    logs: seq<LogLine>,
    cwd: Option<string>,
    serverId: Option<string>)

  /** The host a record belongs to: `process.serverId || 'local'`. */
  function HostOf(p: Process): (h: string)
    ensures Truthy(p.serverId) ==> h == p.serverId.value
    ensures !Truthy(p.serverId) ==> h == LocalServerId
  {
    OrElse(p.serverId, LocalServerId)
  }

  /** `a` and `b` describe the same process apart from its run-time fields
      (status, pid, start time, restart count and logs). */
  predicate SameConfig(a: Process, b: Process) {
    && a.id == b.id && a.name == b.name && a.command == b.command
    && a.createdAt == b.createdAt && a.autoRestart == b.autoRestart
    && a.cwd == b.cwd && a.serverId == b.serverId
  }

  /** `after`'s log begins with all of `before`'s: lines are only ever appended. */
  predicate LogsExtend(before: Process, after: Process) {
    |before.logs| <= |after.logs| && after.logs[..|before.logs|] == before.logs
  }

  /** A log that extends `before`'s log with one more line extends it. */
  lemma ExtendsPastAppend(before: Process, middle: Process, after: Process, line: LogLine)
    requires middle.logs == before.logs + [line] && LogsExtend(middle, after)
    ensures |before.logs| < |after.logs|
    ensures after.logs[..|before.logs| + 1] == before.logs + [line]
    ensures LogsExtend(before, after)
  {
    assert after.logs[..|before.logs|] == middle.logs[..|before.logs|];
  }
}

=== FILE: real_supervisor.dfy ===
/** The local process supervisor (lib/real-process-manager.ts): a keyed table of
    process records, each optionally attached to a live child-process handle.
    Every operation and every event the child emits (output chunk, exit, error)
    and every timer that fires is a pure transition on the table; what the
    operating system answers (the pid of a spawn, whether a signal was delivered)
    is an input. */
module RealSupervisor {

  import opened Common
  import opened ProcessTypes
  import Keyed
  import Text

  /** Working directory used when a process is created without one. */
  const DefaultCwd: string := "/root"

  /** A `ChildProcess` handle. `handle` tells one spawn from another; `killed` is
      Node's flag, set once `kill` has delivered a signal (it does not mean the
      process is gone). */
  datatype Child = Child(handle: nat, pid: Option<int>, killed: bool)

  /** A record of the table: the persisted fields plus the live handle, if any. */
  datatype Supervised = Supervised(proc: Process, child: Option<Child>)

  type Table = Keyed.Store<Supervised>

  /** From `t` to `u` the record `id`, if it exists, keeps its identity and
      configuration and its restart count, and its log only grows. */
  predicate Evolves(t: Table, u: Table, id: Id) {
    id in t.entries ==>
      && id in u.entries
      && SameConfig(t.entries[id].proc, u.entries[id].proc)
      && u.entries[id].proc.restartCount == t.entries[id].proc.restartCount
      && LogsExtend(t.entries[id].proc, u.entries[id].proc)
  }

  lemma EvolvesTrans(t: Table, u: Table, v: Table, id: Id)
    requires Evolves(t, u, id) && Evolves(u, v, id)
    ensures Evolves(t, v, id)
  {
    if id in t.entries {
      var a, b, c := t.entries[id].proc.logs, u.entries[id].proc.logs, v.entries[id].proc.logs;
      assert c[..|a|] == c[..|b|][..|a|];
    }
  }

  /** A record holds a handle only while it is running or failed, and the handle's pid
      is the record's pid; a running record always holds a handle. */
  predicate CoherentRecord(s: Supervised) {
    && (s.child.Some? ==> s.proc.status != Stopped && s.child.value.pid == s.proc.pid)
    && (s.proc.status == Running ==> s.child.Some?)
  }

  predicate Coherent(t: Table) {
    forall k :: k in t.entries ==> CoherentRecord(t.entries[k])
  }

  /** Changing one record coherently keeps the table coherent. */
  lemma CoherentExcept(t: Table, u: Table, id: Id)
    requires Coherent(t) && Keyed.SameExcept(t, u, id)
    requires id in u.entries ==> CoherentRecord(u.entries[id])
    ensures Coherent(u)
  {
    forall k | k in u.entries ensures CoherentRecord(u.entries[k]) {
      if k != id {
        assert t.entries[k] == u.entries[k];
      }
    }
  }

  // ------------------------------------------------------------------ reads

  /** `getProcess(id)`: the record without its handle. */
  function Lookup(t: Table, id: Id): (r: Option<Process>)
    ensures r.Some? <==> id in t.entries
    ensures r.Some? ==> r.value == t.entries[id].proc
  {
    if id in t.entries then Some(t.entries[id].proc) else None
  }

  /** `getProcesses()`: every record without its handle, in insertion order. */
  function Listing(t: Table): (ps: seq<Process>)
    requires Keyed.Valid(t)
    ensures |ps| == |t.order|
    ensures forall i :: 0 <= i < |ps| ==> Lookup(t, t.order[i]) == Some(ps[i])
  {
    seq(|t.order|, i requires 0 <= i < |t.order| => t.entries[t.order[i]].proc)
  }

  // ------------------------------------------------------------------ create

  datatype CreateResult = CreateResult(table: Table, process: Process)

  /** `createProcess(name, command, autoRestart, cwd)` with `id` and `now` standing
      for the random id and the clock. */
  function CreateProcess(t: Table, id: Id, now: Timestamp, name: string, command: string,
                         autoRestart: bool, cwd: Option<string>): (r: CreateResult)
    requires Keyed.Valid(t)
    ensures Keyed.Valid(r.table)
    ensures r.process.id == id && r.process.name == name && r.process.command == command
    ensures r.process.autoRestart == autoRestart && r.process.createdAt == now
    ensures r.process.status == Stopped && r.process.pid == None && r.process.restartCount == 0
    ensures r.process.logs == [LogLine(now, Created)] && r.process.lastStarted == None
    ensures Truthy(r.process.cwd)
    ensures Truthy(cwd) ==> r.process.cwd == cwd
    ensures !Truthy(cwd) ==> r.process.cwd == Some(DefaultCwd)
    ensures r.process.serverId == None
    ensures id in r.table.entries && r.table.entries[id] == Supervised(r.process, None)
    ensures Lookup(r.table, id) == Some(r.process)
    ensures Keyed.SameExcept(t, r.table, id)
    ensures id !in t.entries ==> r.table.order == t.order + [id]
  {
    var p := Process(id, name, command, Stopped, None, now, None, 0, autoRestart,
                     [LogLine(now, Created)], Some(OrElse(cwd, DefaultCwd)), None);
    CreateResult(Keyed.Put(t, id, Supervised(p, None)), p)
  }

  // ------------------------------------------------------------------ start

  /** What `spawn` reported: a child (whose pid is absent when the executable could
      not be launched), or a synchronous exception. */
  datatype SpawnOutcome = Spawned(pid: Option<int>) | SpawnThrew(message: string)

  /** The arguments of the `spawn` call: executable, argument vector, directory. */
  datatype SpawnCall = SpawnCall(line: Text.CommandLine, cwd: string)

  function SpawnCallFor(p: Process): (c: SpawnCall)
    ensures c.line == Text.ParseCommand(p.command)
    ensures Truthy(p.cwd) ==> c.cwd == p.cwd.value
    ensures !Truthy(p.cwd) ==> c.cwd == DefaultCwd
  {
    SpawnCall(Text.ParseCommand(p.command), OrElse(p.cwd, DefaultCwd))
  }

  datatype StartResult = StartResult(table: Table, ok: bool, call: Option<SpawnCall>)

  /** `startProcess` accepts a known id whose status is not `running`. */
  predicate CanStart(t: Table, id: Id) {
    id in t.entries && t.entries[id].proc.status != Running
  }

  /** The record after a successful spawn. */
  predicate StartedFrom(b: Supervised, a: Supervised, now: Timestamp, handle: nat, pid: Option<int>) {
    && SameConfig(b.proc, a.proc) && a.proc.restartCount == b.proc.restartCount
    && a.proc.status == Running && a.proc.pid == pid && a.proc.lastStarted == Some(now)
    && a.proc.logs == b.proc.logs + [LogLine(now, Started(pid))]
    && a.child == Some(Child(handle, pid, false))
  }

  /** `startProcess(id)`. A refused start changes nothing and spawns nothing; an
      accepted one spawns the parsed command, and then either attaches the child
      and marks the record running or, when `spawn` threw, marks it failed. */
  function StartProcess(t: Table, id: Id, now: Timestamp, handle: nat, outcome: SpawnOutcome): (r: StartResult)
    requires Keyed.Valid(t)
    ensures Evolves(t, r.table, id)
    ensures Keyed.Valid(r.table) && r.table.order == t.order
    ensures !CanStart(t, id) ==> r == StartResult(t, false, None)
    ensures r.ok <==> CanStart(t, id) && outcome.Spawned?
    ensures CanStart(t, id) ==>
      && r.call == Some(SpawnCallFor(t.entries[id].proc))
      && id in r.table.entries && Keyed.SameExcept(t, r.table, id)
    ensures r.ok ==> StartedFrom(t.entries[id], r.table.entries[id], now, handle, outcome.pid)
    ensures CanStart(t, id) && outcome.SpawnThrew? ==>
      var b, a := t.entries[id], r.table.entries[id];
      && a.proc == b.proc.(status := Error, logs := b.proc.logs + [LogLine(now, StartFailed(outcome.message))])
      && a.child == b.child
  {
    if !CanStart(t, id) then StartResult(t, false, None)
    else
      var s := t.entries[id];
      var p := s.proc;
      var call := SpawnCallFor(p);
      match outcome
      case Spawned(pid) =>
        var p' := p.(status := Running, pid := pid, lastStarted := Some(now),
                     logs := p.logs + [LogLine(now, Started(pid))]);
        StartResult(Keyed.Put(t, id, Supervised(p', Some(Child(handle, pid, false)))), true, Some(call))
      case SpawnThrew(message) =>
        var p' := p.(status := Error, logs := p.logs + [LogLine(now, StartFailed(message))]);
        StartResult(Keyed.Put(t, id, Supervised(p', s.child)), false, Some(call))
  }

  // ------------------------------------------------------------------ child events

  /** A `data` chunk on the child's stdout or stderr. The chunk is trimmed; a blank
      chunk leaves the table as it was, any other appends one tagged line. */
  function OnOutput(t: Table, id: Id, stream: Stream, at: Timestamp, chunk: string): (r: Table)
    requires Keyed.Valid(t)
    ensures Evolves(t, r, id)
    ensures Keyed.Valid(r) && r.order == t.order && Keyed.SameExcept(t, r, id)
    ensures id !in t.entries || Text.Trim(chunk) == [] ==> r == t
    ensures id in t.entries && Text.Trim(chunk) != [] ==>
      var b := t.entries[id];
      && id in r.entries
      && r.entries[id] == b.(proc := b.proc.(logs := b.proc.logs + [LogLine(at, Output(stream, Text.Trim(chunk)))]))
  {
    var text := Text.Trim(chunk);
    if id !in t.entries || text == [] then t
    else
      var s := t.entries[id];
      Keyed.Put(t, id, s.(proc := s.proc.(logs := s.proc.logs + [LogLine(at, Output(stream, text))])))
  }

  /** How the child ended: an exit code (`null` when a signal ended it) and the signal. */
  datatype ExitInfo = ExitInfo(at: Timestamp, code: Option<int>, signal: Option<string>)

  datatype ExitResult = ExitResult(table: Table, restartScheduled: bool)

  /** The log lines the exit handler appends. */
  function ExitLines(e: ExitInfo, scheduled: bool): (lines: seq<LogLine>)
    ensures |lines| == if scheduled then 2 else 1
    ensures Truthy(e.signal) ==> lines[0] == LogLine(e.at, KilledBySignal(e.signal.value))
    ensures !Truthy(e.signal) ==> lines[0] == LogLine(e.at, ExitedWith(e.code))
    ensures scheduled ==> lines[1] == LogLine(e.at, AutoRestartPending)
  {
    var first := if Truthy(e.signal) then KilledBySignal(e.signal.value) else ExitedWith(e.code);
    [LogLine(e.at, first)] + (if scheduled then [LogLine(e.at, AutoRestartPending)] else [])
  }

  /** The child's `exit` event. The record stops when the code is 0 and fails
      otherwise, a signal exit (code `null`) included; pid and handle are cleared;
      an automatic restart is scheduled exactly when `autoRestart` is set and the
      code is not 0. An exit for a deleted record changes nothing. */
  function OnExit(t: Table, id: Id, e: ExitInfo): (r: ExitResult)
    requires Keyed.Valid(t)
    ensures Evolves(t, r.table, id)
    ensures Keyed.Valid(r.table) && r.table.order == t.order && Keyed.SameExcept(t, r.table, id)
    ensures id !in t.entries ==> r == ExitResult(t, false)
    ensures id in t.entries ==>
      var b, a := t.entries[id], r.table.entries[id];
      && (a.proc.status == Stopped <==> e.code == Some(0))
      && (a.proc.status == Error <==> e.code != Some(0))
      && a.proc.pid == None && a.child == None
      && (r.restartScheduled <==> b.proc.autoRestart && e.code != Some(0))
      && a.proc.logs == b.proc.logs + ExitLines(e, r.restartScheduled)
      && SameConfig(b.proc, a.proc) && a.proc.restartCount == b.proc.restartCount
      && a.proc.lastStarted == b.proc.lastStarted
  {
    if id !in t.entries then ExitResult(t, false)
    else
      var s := t.entries[id];
      var p := s.proc;
      var scheduled := p.autoRestart && e.code != Some(0);
      var p' := p.(status := if e.code == Some(0) then Stopped else Error, pid := None,
                   logs := p.logs + ExitLines(e, scheduled));
      ExitResult(Keyed.Put(t, id, Supervised(p', None)), scheduled)
  }

  /** The child's `error` event (the executable could not be launched, or a signal
      could not be sent): the record fails and the message is logged; pid and
      handle stay as they were. */
  function OnChildError(t: Table, id: Id, at: Timestamp, message: string): (r: Table)
    requires Keyed.Valid(t)
    ensures Evolves(t, r, id)
    ensures Keyed.Valid(r) && r.order == t.order && Keyed.SameExcept(t, r, id)
    ensures id !in t.entries ==> r == t
    ensures id in t.entries ==>
      var b := t.entries[id];
      && id in r.entries
      && r.entries[id] == b.(proc := b.proc.(status := Error, logs := b.proc.logs + [LogLine(at, SpawnFailed(message))]))
  {
    if id !in t.entries then t
    else
      var s := t.entries[id];
      Keyed.Put(t, id, s.(proc := s.proc.(status := Error, logs := s.proc.logs + [LogLine(at, SpawnFailed(message))])))
  }

  // ------------------------------------------------------------------ stop

  /** What `child.kill(signal)` did: delivered the signal, failed to deliver it, or threw. */
  datatype SignalOutcome = Delivered | NotDelivered | KillThrew(message: string)

  /** The 3-second escalation timer armed by a stop, remembering the child it was armed for. */
  datatype Escalation = Escalation(id: Id, handle: nat)

  datatype StopResult = StopResult(table: Table, ok: bool, escalation: Option<Escalation>)

  /** `stopProcess` accepts a running record that holds a live handle. */
  predicate CanStop(t: Table, id: Id) {
    id in t.entries && t.entries[id].proc.status == Running && t.entries[id].child.Some?
  }

  /** `stopProcess(id)`: sends SIGTERM and arms the escalation timer. It never changes
      the status; the record stops only when the child's exit arrives. */
  function StopProcess(t: Table, id: Id, now: Timestamp, signal: SignalOutcome): (r: StopResult)
    requires Keyed.Valid(t)
    ensures Evolves(t, r.table, id)
    ensures Keyed.Valid(r.table) && r.table.order == t.order && Keyed.SameExcept(t, r.table, id)
    ensures !CanStop(t, id) ==> r == StopResult(t, false, None)
    ensures r.ok <==> CanStop(t, id) && !signal.KillThrew?
    ensures r.escalation.Some? <==> r.ok
    ensures CanStop(t, id) ==>
      var b, a := t.entries[id], r.table.entries[id];
      && a.proc == b.proc.(logs := a.proc.logs)
      && a.child.Some? && a.child.value.handle == b.child.value.handle
      && a.child.value.pid == b.child.value.pid
    ensures r.ok ==>
      var b, a := t.entries[id], r.table.entries[id];
      && r.escalation == Some(Escalation(id, b.child.value.handle))
      && a.proc.logs == b.proc.logs + [LogLine(now, TermSent)]
      && a.child.value.killed == (b.child.value.killed || signal == Delivered)
    ensures CanStop(t, id) && signal.KillThrew? ==>
      r.table.entries[id] == t.entries[id].(proc := t.entries[id].proc.(
        logs := t.entries[id].proc.logs + [LogLine(now, StopFailed(signal.message))]))
  {
    if !CanStop(t, id) then StopResult(t, false, None)
    else
      var s := t.entries[id];
      var c := s.child.value;
      match signal
      case KillThrew(message) =>
        var p' := s.proc.(logs := s.proc.logs + [LogLine(now, StopFailed(message))]);
        StopResult(Keyed.Put(t, id, s.(proc := p')), false, None)
      case _ =>
        var c' := c.(killed := c.killed || signal == Delivered);
        var p' := s.proc.(logs := s.proc.logs + [LogLine(now, TermSent)]);
        StopResult(Keyed.Put(t, id, Supervised(p', Some(c'))), true, Some(Escalation(id, c.handle)))
  }

  /** What an escalation timer did: the table after it, and the child it sent SIGKILL to. */
  datatype EscalationResult = EscalationResult(table: Table, sigkill: Option<nat>)

  /** SIGKILL the attached child. Node sets the child's `killed` flag only when the
      signal is delivered; the line is logged either way. A `kill` that throws leaves
      the timer callback before the log, so the record is untouched. */
  function ForceKill(t: Table, id: Id, at: Timestamp, signal: SignalOutcome): (r: EscalationResult)
    requires Keyed.Valid(t) && id in t.entries && t.entries[id].child.Some?
    ensures Evolves(t, r.table, id)
    ensures Keyed.Valid(r.table) && r.table.order == t.order && Keyed.SameExcept(t, r.table, id)
    ensures r.sigkill == Some(t.entries[id].child.value.handle)
    ensures signal.KillThrew? ==> r.table == t
    ensures !signal.KillThrew? ==>
      var b := t.entries[id];
      && id in r.table.entries
      && r.table.entries[id] == Supervised(b.proc.(logs := b.proc.logs + [LogLine(at, ForceKilled)]),
                                           Some(b.child.value.(killed := b.child.value.killed || signal == Delivered)))
  {
    var s := t.entries[id];
    var c := s.child.value;
    if signal.KillThrew? then EscalationResult(t, Some(c.handle))
    else
      var p' := s.proc.(logs := s.proc.logs + [LogLine(at, ForceKilled)]);
      EscalationResult(Keyed.Put(t, id, Supervised(p', Some(c.(killed := c.killed || signal == Delivered)))), Some(c.handle))
  }

  /** The escalation timer AS WRITTEN: it reads the record's handle when it fires and
      kills whatever child is attached then, unless Node's `killed` flag is set. */
  function FireEscalationAsWritten(t: Table, e: Escalation, at: Timestamp, signal: SignalOutcome): (r: EscalationResult)
    requires Keyed.Valid(t)
    ensures Evolves(t, r.table, e.id)
    ensures Keyed.Valid(r.table) && r.table.order == t.order
    ensures r.sigkill.Some? <==>
      e.id in t.entries && t.entries[e.id].child.Some? && !t.entries[e.id].child.value.killed
    ensures r.sigkill.Some? ==> r.sigkill.value == t.entries[e.id].child.value.handle
    ensures r.sigkill.None? ==> r.table == t
  {
    if e.id in t.entries && t.entries[e.id].child.Some? && !t.entries[e.id].child.value.killed
    then ForceKill(t, e.id, at, signal)
    else EscalationResult(t, None)
  }

  /** The escalation timer as intended: SIGKILL exactly when the child the timer was
      armed for is still attached, that is, when its exit has not been seen. It never
      touches a child spawned later. */
  function FireEscalation(t: Table, e: Escalation, at: Timestamp, signal: SignalOutcome): (r: EscalationResult)
    requires Keyed.Valid(t)
    ensures Evolves(t, r.table, e.id)
    ensures Keyed.Valid(r.table) && r.table.order == t.order
    ensures r.sigkill.Some? <==>
      e.id in t.entries && t.entries[e.id].child.Some? && t.entries[e.id].child.value.handle == e.handle
    ensures r.sigkill.Some? ==> r.sigkill.value == e.handle
    ensures r.sigkill.None? ==> r.table == t
    ensures e.id in t.entries ==>
      e.id in r.table.entries && r.table.entries[e.id].proc.status == t.entries[e.id].proc.status
  {
    if e.id in t.entries && t.entries[e.id].child.Some? && t.entries[e.id].child.value.handle == e.handle
    then ForceKill(t, e.id, at, signal)
    else EscalationResult(t, None)
  }

  // ------------------------------------------------------------------ restart and delete

  /** What `restartProcess` has done when it yields: its answer, when it answers at
      once (`Some(ok)`), and the escalation timer its stop armed. A running record is
      stopped and its answer is `None`: the promise resolves only with the start made
      when the 1-second settle delay has passed, which is a separate later `Start`,
      so anything else may happen to the record in between. */
  datatype RestartResult = RestartResult(table: Table, answer: Option<bool>, escalation: Option<Escalation>)

  /** The first, synchronous part of `restartProcess`: log the intent and count the restart. */
  function BeginRestart(t: Table, id: Id, now: Timestamp): (r: Table)
    requires Keyed.Valid(t) && id in t.entries
    ensures Keyed.Valid(r) && r.order == t.order && Keyed.SameExcept(t, r, id)
    ensures
      var b := t.entries[id];
      && id in r.entries
      && r.entries[id] == b.(proc := b.proc.(logs := b.proc.logs + [LogLine(now, RestartBegun)],
                                              restartCount := b.proc.restartCount + 1))
  {
    var s := t.entries[id];
    Keyed.Put(t, id, s.(proc := s.proc.(logs := s.proc.logs + [LogLine(now, RestartBegun)],
                                         restartCount := s.proc.restartCount + 1)))
  }

  /** `restartProcess(id)` up to its first `await`. The restart is logged and counted
      once, whatever follows. A record that is not running is started at once, with
      `handle` and `outcome` describing that spawn. A running record is sent SIGTERM
      instead, and is left for the settle timer's start. */
  function RestartProcess(t: Table, id: Id, now: Timestamp, signal: SignalOutcome,
                          handle: nat, outcome: SpawnOutcome): (r: RestartResult)
    requires Keyed.Valid(t)
    ensures Keyed.Valid(r.table) && r.table.order == t.order && Keyed.SameExcept(t, r.table, id)
    ensures id !in t.entries ==> r == RestartResult(t, Some(false), None)
    ensures id in t.entries ==>
      var b, a := t.entries[id], r.table.entries[id];
      && id in r.table.entries
      && a.proc.restartCount == b.proc.restartCount + 1
      && SameConfig(b.proc, a.proc)
      && |b.proc.logs| < |a.proc.logs|
      && a.proc.logs[..|b.proc.logs| + 1] == b.proc.logs + [LogLine(now, RestartBegun)]
      && LogsExtend(b.proc, a.proc)
    ensures r.answer.None? <==> id in t.entries && t.entries[id].proc.status == Running
    ensures id in t.entries && t.entries[id].proc.status != Running ==>
      var a := r.table.entries[id];
      && r.answer == Some(outcome.Spawned?) && r.escalation == None
      && (outcome.Spawned? ==> a.proc.status == Running && a.proc.pid == outcome.pid
                               && a.child == Some(Child(handle, outcome.pid, false)))
      && (outcome.SpawnThrew? ==> a.proc.status == Error)
    ensures id in t.entries && t.entries[id].proc.status == Running ==>
      && r.table.entries[id].proc.status == Running && !CanStart(r.table, id)
      && r.table.entries[id].child.Some? == t.entries[id].child.Some?
      && (r.escalation.Some? <==> CanStop(t, id) && !signal.KillThrew?)
      && (r.escalation.Some? ==> r.escalation == Some(Escalation(id, t.entries[id].child.value.handle)))
  {
    if id !in t.entries then RestartResult(t, Some(false), None)
    else
      var t1 := BeginRestart(t, id, now);
      var r := if t.entries[id].proc.status == Running then
                 var stop := StopProcess(t1, id, now, signal);
                 RestartResult(stop.table, None, stop.escalation)
               else
                 var start := StartProcess(t1, id, now, handle, outcome);
                 RestartResult(start.table, Some(start.ok), None);
      ExtendsPastAppend(t.entries[id].proc, t1.entries[id].proc, r.table.entries[id].proc,
                        LogLine(now, RestartBegun));
      r
  }

  datatype DeleteResult = DeleteResult(table: Table, ok: bool, escalation: Option<Escalation>)

  /** `deleteProcess(id)`: stop the record if it is running, then remove exactly it. */
  function DeleteProcess(t: Table, id: Id, now: Timestamp, signal: SignalOutcome): (r: DeleteResult)
    requires Keyed.Valid(t)
    ensures Keyed.Valid(r.table)
    ensures id !in t.entries ==> r == DeleteResult(t, false, None)
    ensures id in t.entries ==>
      && r.ok && r.table.entries == t.entries - {id}
      && r.table.order == Keyed.Without(t.order, id)
    ensures r.escalation.Some? <==> CanStop(t, id) && !signal.KillThrew?
    ensures r.escalation.Some? ==> r.escalation == Some(Escalation(id, t.entries[id].child.value.handle))
  {
    if id !in t.entries then DeleteResult(t, false, None)
    else
      var stop := if t.entries[id].proc.status == Running then StopProcess(t, id, now, signal)
                  else StopResult(t, false, None);
      Keyed.RemoveForgets(t, stop.table, id);
      DeleteResult(Keyed.Remove(stop.table, id), true, stop.escalation)
  }

  // ------------------------------------------------------------------ persistence

  /** `saveProcesses()`: every record without its handle, keyed by id in table order. */
  function Snapshot(t: Table): (saved: Keyed.Store<Process>)
    requires Keyed.Valid(t)
    ensures Keyed.Valid(saved) && saved.order == t.order
    ensures saved.entries.Keys == t.entries.Keys
    ensures forall k :: k in t.entries ==> saved.entries[k] == t.entries[k].proc
  {
    Keyed.MapValues(t, (s: Supervised) => s.proc)
  }

  /** `loadProcesses()` AS WRITTEN: every saved record is taken back as it was,
      a `running` status and its pid included, with no handle attached. */
  function LoadAsWritten(saved: Keyed.Store<Process>): (t: Table)
    requires Keyed.Valid(saved)
    ensures Keyed.Valid(t) && t.order == saved.order
    ensures t.entries.Keys == saved.entries.Keys
    ensures forall k :: k in saved.entries ==> t.entries[k] == Supervised(saved.entries[k], None)
  {
    Keyed.MapValues(saved, (p: Process) => Supervised(p, None))
  }

  /** A record restored from disk, corrected: no live process can be reattached, so
      the pid is dropped and a record that claimed to be running is stopped. */
  function Reloaded(p: Process): (q: Process)
    ensures SameConfig(p, q) && q.logs == p.logs && q.restartCount == p.restartCount
    ensures q.lastStarted == p.lastStarted && q.pid == None
    ensures q.status == (if p.status == Running then Stopped else p.status)
  {
    p.(pid := None, status := if p.status == Running then Stopped else p.status)
  }

  /** `loadProcesses()`, corrected. */
  function Load(saved: Keyed.Store<Process>): (t: Table)
    requires Keyed.Valid(saved)
    ensures Keyed.Valid(t) && t.order == saved.order
    ensures t.entries.Keys == saved.entries.Keys
    ensures forall k :: k in saved.entries ==> t.entries[k] == Supervised(Reloaded(saved.entries[k]), None)
    ensures forall k :: k in t.entries ==> t.entries[k].proc.status != Running
  {
    Keyed.MapValues(saved, (p: Process) => Supervised(Reloaded(p), None))
  }

  /** Saving and loading keep every record's identity, configuration, restart count
      and log, in the same order. */
  lemma SnapshotLoadRoundTrip(t: Table)
    requires Keyed.Valid(t)
    ensures var u := Load(Snapshot(t));
      && u.order == t.order && u.entries.Keys == t.entries.Keys
      && forall k :: k in t.entries ==>
           && SameConfig(t.entries[k].proc, u.entries[k].proc)
           && u.entries[k].proc.logs == t.entries[k].proc.logs
           && u.entries[k].proc.restartCount == t.entries[k].proc.restartCount
           && u.entries[k].child == None
  {
  }

  /** Finding, as written: a record saved while running comes back running with no
      handle, so `startProcess` refuses it (it is running) and so does
      `stopProcess` (it has no handle). */
  lemma LoadAsWrittenStrandsRunning(saved: Keyed.Store<Process>, id: Id)
    requires Keyed.Valid(saved) && id in saved.entries && saved.entries[id].status == Running
    ensures var t := LoadAsWritten(saved); !CanStart(t, id) && !CanStop(t, id)
  {
  }

  // ------------------------------------------------------------------ findings about escalation

  /** Finding, as written: once SIGTERM has been delivered Node sets `killed`, so the
      timer never sends SIGKILL, even though the child has not exited and is
      still attached three seconds later. */
  lemma AsWrittenSparesStubbornChild(t: Table, id: Id, now: Timestamp, at: Timestamp)
    requires Keyed.Valid(t) && CanStop(t, id)
    ensures var stop := StopProcess(t, id, now, Delivered);
      && stop.escalation.Some?
      && stop.table.entries[id].child.Some?
      && FireEscalationAsWritten(stop.table, stop.escalation.value, at, Delivered).sigkill == None
  {
  }

  /** Corrected: the timer sends SIGKILL to a child that is still attached three seconds
      after its stop, whatever `kill` reported. */
  lemma EscalationKillsStubbornChild(t: Table, id: Id, now: Timestamp, signal: SignalOutcome, at: Timestamp)
    requires Keyed.Valid(t) && CanStop(t, id) && !signal.KillThrew?
    ensures var stop := StopProcess(t, id, now, signal);
      && stop.escalation.Some?
      && FireEscalation(stop.table, stop.escalation.value, at, Delivered).sigkill == Some(t.entries[id].child.value.handle)
  {
  }

  /** Finding, as written: restarting a running record arms the escalation timer for
      the old child; the old child exits within the settle delay and the settle
      timer's start spawns a new child; when the escalation timer fires it finds the
      NEW child, whose `killed` flag is clear, and sends it SIGKILL. */
  lemma AsWrittenKillsRestartedChild(t: Table, id: Id, now: Timestamp, exit: ExitInfo, at: Timestamp,
                                     handle: nat, pid: Option<int>, later: Timestamp)
    requires Keyed.Valid(t) && CanStop(t, id)
    ensures
      var r := RestartProcess(t, id, now, Delivered, handle, Spawned(pid));
      var s := StartProcess(OnExit(r.table, id, exit).table, id, at, handle, Spawned(pid));
      && r.answer == None && r.escalation == Some(Escalation(id, t.entries[id].child.value.handle))
      && s.ok && s.table.entries[id].child == Some(Child(handle, pid, false))
      && FireEscalationAsWritten(s.table, r.escalation.value, later, Delivered).sigkill == Some(handle)
  {
    var r := RestartProcess(t, id, now, Delivered, handle, Spawned(pid));
    var e := OnExit(r.table, id, exit).table;
    assert e.entries[id].child.None? && e.entries[id].proc.status != Running;
    assert CanStart(e, id);
  }

  /** Corrected: in the same restart the timer leaves the new child alone, since the
      new spawn carries a new handle. */
  lemma EscalationSparesRestartedChild(t: Table, id: Id, now: Timestamp, exit: ExitInfo, at: Timestamp,
                                       handle: nat, pid: Option<int>, later: Timestamp)
    requires Keyed.Valid(t) && CanStop(t, id) && handle != t.entries[id].child.value.handle
    ensures
      var r := RestartProcess(t, id, now, Delivered, handle, Spawned(pid));
      var s := StartProcess(OnExit(r.table, id, exit).table, id, at, handle, Spawned(pid));
      && r.escalation.Some? && s.ok
      && FireEscalation(s.table, r.escalation.value, later, Delivered) == EscalationResult(s.table, None)
  {
  }

  // ------------------------------------------------------------------ runs

  /** Everything that can happen to the table: a request, a child's event or a timer. */
  datatype Event =
    | Create(id: Id, now: Timestamp, name: string, command: string, autoRestart: bool, cwd: Option<string>)
    | Start(id: Id, now: Timestamp, handle: nat, outcome: SpawnOutcome)
    | Chunk(id: Id, stream: Stream, at: Timestamp, text: string)
    | Exit(id: Id, info: ExitInfo)
    | ChildError(id: Id, at: Timestamp, message: string)
    | Stop(id: Id, now: Timestamp, signal: SignalOutcome)
    | Escalate(timer: Escalation, at: Timestamp, kill: SignalOutcome)
    | EscalateCorrected(timer: Escalation, at: Timestamp, kill: SignalOutcome)
    | Restart(id: Id, now: Timestamp, signal: SignalOutcome, handle: nat, outcome: SpawnOutcome)
    | Delete(id: Id, now: Timestamp, signal: SignalOutcome)

  /** The table after one event. The automatic-restart timer is a `Restart` event, and
      the start a restart makes after its settle delay is a `Start` event. `Escalate`
      is the 3-second timer as written; `EscalateCorrected` is the corrected timer, so
      a run of the source uses only the former and every lemma below covers both. */
  function Step(t: Table, ev: Event): (u: Table)
    requires Keyed.Valid(t)
    ensures Keyed.Valid(u)
  {
    match ev
    case Create(id, now, name, command, autoRestart, cwd) =>
      CreateProcess(t, id, now, name, command, autoRestart, cwd).table
    case Start(id, now, handle, outcome) => StartProcess(t, id, now, handle, outcome).table
    case Chunk(id, stream, at, text) => OnOutput(t, id, stream, at, text)
    case Exit(id, info) => OnExit(t, id, info).table
    case ChildError(id, at, message) => OnChildError(t, id, at, message)
    case Stop(id, now, signal) => StopProcess(t, id, now, signal).table
    case Escalate(timer, at, kill) => FireEscalationAsWritten(t, timer, at, kill).table
    case EscalateCorrected(timer, at, kill) => FireEscalation(t, timer, at, kill).table
    case Restart(id, now, signal, handle, outcome) =>
      RestartProcess(t, id, now, signal, handle, outcome).table
    case Delete(id, now, signal) => DeleteProcess(t, id, now, signal).table
  }

  function Run(t: Table, evs: seq<Event>): (u: Table)
    requires Keyed.Valid(t)
    ensures Keyed.Valid(u)
    decreases |evs|
  {
    if evs == [] then t else Run(Step(t, evs[0]), evs[1..])
  }

  /** The record `k` of `u` is the record `k` of `t` later on: same identity and
      configuration, a restart count that has not gone down, a log that only grew. */
  predicate Continues(t: Table, u: Table, k: Id)
    requires k in t.entries && k in u.entries
  {
    var a, b := t.entries[k].proc, u.entries[k].proc;
    SameConfig(a, b) && a.restartCount <= b.restartCount && LogsExtend(a, b)
  }

  /** No event of `evs` creates a record with id `k`. */
  predicate NeverCreates(evs: seq<Event>, k: Id) {
    forall i :: 0 <= i < |evs| ==> !(evs[i].Create? && evs[i].id == k)
  }

  /** An event aimed at one record leaves every other record as it was. */
  lemma UntouchedContinues(t: Table, u: Table, id: Id, k: Id)
    requires k in t.entries && k in u.entries && k != id && Keyed.SameExcept(t, u, id)
    ensures Continues(t, u, k)
  {
    assert u.entries[k] == t.entries[k];
    assert u.entries[k].proc.logs[..|t.entries[k].proc.logs|] == t.entries[k].proc.logs;
  }

  /** A record that evolved continues; so does any record an event did not aim at. */
  lemma EvolvedContinues(t: Table, u: Table, id: Id, k: Id)
    requires k in t.entries && k in u.entries && Keyed.SameExcept(t, u, id) && Evolves(t, u, id)
    ensures Continues(t, u, k)
  {
    if k != id {
      UntouchedContinues(t, u, id, k);
    }
  }

  lemma StepContinues(t: Table, ev: Event, k: Id)
    requires Keyed.Valid(t) && k in t.entries && !(ev.Create? && ev.id == k)
    ensures k in Step(t, ev).entries ==> Continues(t, Step(t, ev), k)
  {
    if k in Step(t, ev).entries {
      match ev
      case Create(id, now, name, command, autoRestart, cwd) =>
        UntouchedContinues(t, CreateProcess(t, id, now, name, command, autoRestart, cwd).table, id, k);
      case Start(id, now, handle, outcome) =>
        EvolvedContinues(t, StartProcess(t, id, now, handle, outcome).table, id, k);
      case Chunk(id, stream, at, text) =>
        EvolvedContinues(t, OnOutput(t, id, stream, at, text), id, k);
      case Exit(id, info) =>
        EvolvedContinues(t, OnExit(t, id, info).table, id, k);
      case ChildError(id, at, message) =>
        EvolvedContinues(t, OnChildError(t, id, at, message), id, k);
      case Stop(id, now, signal) =>
        EvolvedContinues(t, StopProcess(t, id, now, signal).table, id, k);
      case Escalate(timer, at, kill) =>
        EvolvedContinues(t, FireEscalationAsWritten(t, timer, at, kill).table, timer.id, k);
      case EscalateCorrected(timer, at, kill) =>
        EvolvedContinues(t, FireEscalation(t, timer, at, kill).table, timer.id, k);
      case Restart(id, now, signal, handle, outcome) =>
        var u := RestartProcess(t, id, now, signal, handle, outcome).table;
        if id != k { UntouchedContinues(t, u, id, k); }
      case Delete(id, now, signal) =>
        UntouchedContinues(t, DeleteProcess(t, id, now, signal).table, id, k);
    }
  }

  /** A record that is gone stays gone unless it is created again. */
  lemma {:induction false} RunNoResurrection(t: Table, evs: seq<Event>, k: Id)
    requires Keyed.Valid(t) && k !in t.entries && NeverCreates(evs, k)
    ensures k !in Run(t, evs).entries
    decreases |evs|
  {
    if evs != [] {
      var ev := evs[0];
      assert !(ev.Create? && ev.id == k);
      var u := Step(t, ev);
      assert k !in u.entries by {
        if ev.Restart? {
          assert k != ev.id || ev.id !in t.entries;
        }
      }
      assert NeverCreates(evs[1..], k) by {
        forall i | 0 <= i < |evs| - 1 ensures !(evs[1..][i].Create? && evs[1..][i].id == k) {
          assert evs[1..][i] == evs[i + 1];
        }
      }
      RunNoResurrection(u, evs[1..], k);
    }
  }

  lemma ContinuesTrans(t: Table, u: Table, v: Table, k: Id)
    requires k in t.entries && k in u.entries && k in v.entries
    requires Continues(t, u, k) && Continues(u, v, k)
    ensures Continues(t, v, k)
  {
    var a, b, c := t.entries[k].proc.logs, u.entries[k].proc.logs, v.entries[k].proc.logs;
    assert c[..|a|] == c[..|b|][..|a|];
  }

  /** Over any run that does not re-create it, a record that survives keeps its
      identity and configuration, never loses a restart and never loses a log line. */
  lemma {:induction false} RunContinues(t: Table, evs: seq<Event>, k: Id)
    requires Keyed.Valid(t) && k in t.entries && NeverCreates(evs, k)
    ensures k in Run(t, evs).entries ==> Continues(t, Run(t, evs), k)
    decreases |evs|
  {
    if evs == [] {
      assert t.entries[k].proc.logs[..|t.entries[k].proc.logs|] == t.entries[k].proc.logs;
    } else {
      var u := Step(t, evs[0]);
      var rest := evs[1..];
      assert !(evs[0].Create? && evs[0].id == k);
      assert NeverCreates(rest, k) by {
        forall i | 0 <= i < |rest| ensures !(rest[i].Create? && rest[i].id == k) {
          assert rest[i] == evs[i + 1];
        }
      }
      assert Run(t, evs) == Run(u, rest);
      if k in u.entries {
        StepContinues(t, evs[0], k);
        RunContinues(u, rest, k);
        if k in Run(u, rest).entries {
          ContinuesTrans(t, u, Run(u, rest), k);
        }
      } else {
        RunNoResurrection(u, rest, k);
      }
    }
  }

  // ------------------------------------------------------------------ coherence


  /** In a coherent table every record can be acted on: it can be started, or stopped. */
  lemma CoherentControllable(t: Table, id: Id)
    requires Coherent(t) && id in t.entries
    ensures CanStart(t, id) || CanStop(t, id)
  {
  }

  lemma RestartCoherent(t: Table, id: Id, now: Timestamp, signal: SignalOutcome,
                        handle: nat, outcome: SpawnOutcome)
    requires Keyed.Valid(t) && Coherent(t)
    ensures Coherent(RestartProcess(t, id, now, signal, handle, outcome).table)
  {
    if id in t.entries {
      var t1 := BeginRestart(t, id, now);
      CoherentExcept(t, t1, id);
      var u := RestartProcess(t, id, now, signal, handle, outcome).table;
      if t.entries[id].proc.status == Running {
        CoherentExcept(t1, StopProcess(t1, id, now, signal).table, id);
      } else {
        CoherentExcept(t1, StartProcess(t1, id, now, handle, outcome).table, id);
      }
    }
  }

  /** Both escalation checks preserve coherence: SIGKILL changes no status. */
  lemma EscalationCoherent(t: Table, timer: Escalation, at: Timestamp, kill: SignalOutcome)
    requires Keyed.Valid(t) && Coherent(t)
    ensures Coherent(FireEscalationAsWritten(t, timer, at, kill).table)
    ensures Coherent(FireEscalation(t, timer, at, kill).table)
  {
    CoherentExcept(t, FireEscalationAsWritten(t, timer, at, kill).table, timer.id);
    CoherentExcept(t, FireEscalation(t, timer, at, kill).table, timer.id);
  }

  /** Creating, starting, stopping and deleting preserve coherence. */
  lemma RequestCoherent(t: Table, ev: Event)
    requires Keyed.Valid(t) && Coherent(t)
    requires ev.Create? || ev.Start? || ev.Stop? || ev.Delete?
    ensures Coherent(Step(t, ev))
  {
    match ev
    case Create(id, now, name, command, autoRestart, cwd) =>
      CoherentExcept(t, CreateProcess(t, id, now, name, command, autoRestart, cwd).table, id);
    case Start(id, now, handle, outcome) =>
      CoherentExcept(t, StartProcess(t, id, now, handle, outcome).table, id);
    case Stop(id, now, signal) =>
      CoherentExcept(t, StopProcess(t, id, now, signal).table, id);
    case Delete(id, now, signal) =>
      CoherentExcept(t, DeleteProcess(t, id, now, signal).table, id);
  }

  /** Output, exit and error events of a child preserve coherence. */
  lemma ChildEventCoherent(t: Table, ev: Event)
    requires Keyed.Valid(t) && Coherent(t)
    requires ev.Chunk? || ev.Exit? || ev.ChildError?
    ensures Coherent(Step(t, ev))
  {
    match ev
    case Chunk(id, stream, at, text) =>
      CoherentExcept(t, OnOutput(t, id, stream, at, text), id);
    case Exit(id, info) =>
      CoherentExcept(t, OnExit(t, id, info).table, id);
    case ChildError(id, at, message) =>
      CoherentExcept(t, OnChildError(t, id, at, message), id);
  }

  lemma StepCoherent(t: Table, ev: Event)
    requires Keyed.Valid(t) && Coherent(t)
    ensures Coherent(Step(t, ev))
  {
    match ev
    case Escalate(timer, at, kill) => EscalationCoherent(t, timer, at, kill);
    case EscalateCorrected(timer, at, kill) => EscalationCoherent(t, timer, at, kill);
    case Restart(id, now, signal, handle, outcome) => RestartCoherent(t, id, now, signal, handle, outcome);
    case Chunk(_, _, _, _) => ChildEventCoherent(t, ev);
    case Exit(_, _) => ChildEventCoherent(t, ev);
    case ChildError(_, _, _) => ChildEventCoherent(t, ev);
    case _ => RequestCoherent(t, ev);
  }

  /** Coherence holds after any run from a corrected load or from the empty table. */
  lemma {:induction false} RunCoherent(t: Table, evs: seq<Event>)
    requires Keyed.Valid(t) && Coherent(t)
    ensures Coherent(Run(t, evs))
    decreases |evs|
  {
    if evs != [] {
      StepCoherent(t, evs[0]);
      RunCoherent(Step(t, evs[0]), evs[1..]);
    }
  }

  lemma LoadCoherent(saved: Keyed.Store<Process>)
    requires Keyed.Valid(saved)
    ensures Coherent(Load(saved))
  {
  }
}

=== FILE: sim_supervisor.dfy ===
/** The simulated supervisor (lib/process-manager.ts): the same lifecycle as the
    local supervisor, but nothing is spawned. A start invents a pid, a 30-second
    heartbeat timer keeps the record alive, and each heartbeat may fail the record
    at random. The heartbeat timers in existence are tracked as the set of ids
    that have one; the random draws are inputs. */
module SimSupervisor {

  import opened Common
  import opened ProcessTypes
  import Keyed

  /** Number of distinct pids a simulated start can invent, and the first one. */
  const PidSpan: int := 65535
  const PidBase: int := 1000

  /** The records, and the ids whose heartbeat timer is armed. */
  datatype Sim = Sim(procs: Keyed.Store<Process>, ticking: set<Id>)

  /** Every running record, and only a running one, has a heartbeat timer, and its
      invented pid lies in the range a start can produce. */
  ghost predicate Good(s: Sim) {
    && Keyed.Valid(s.procs)
    && (forall k :: k in s.ticking <==> k in s.procs.entries && s.procs.entries[k].status == Running)
    && (forall k :: k in s.procs.entries && s.procs.entries[k].status == Running ==>
          s.procs.entries[k].pid.Some? && PidBase <= s.procs.entries[k].pid.value < PidBase + PidSpan)
  }

  /** The record `id` may change; nothing else does, and its timer is armed exactly
      when it is running afterwards. */
  ghost predicate OnlyTouches(s: Sim, u: Sim, id: Id) {
    && Keyed.SameExcept(s.procs, u.procs, id)
    && u.procs.order == s.procs.order
    && (forall k :: k != id ==> (k in u.ticking <==> k in s.ticking))
    && (id in u.ticking <==> id in u.procs.entries && u.procs.entries[id].status == Running)
  }

  function Initial(): (s: Sim)
    ensures Good(s) && s.procs.order == []
  {
    Sim(Keyed.Empty(), {})
  }

  /** `getProcess(id)`. */
  function Lookup(s: Sim, id: Id): (r: Option<Process>)
    ensures r.Some? <==> id in s.procs.entries
    ensures r.Some? ==> r.value == s.procs.entries[id]
  {
    Keyed.Get(s.procs, id)
  }

  /** `getProcesses()`: the records in insertion order. */
  function Listing(s: Sim): (ps: seq<Process>)
    requires Keyed.Valid(s.procs)
    ensures |ps| == |s.procs.order|
    ensures forall i :: 0 <= i < |ps| ==> Lookup(s, s.procs.order[i]) == Some(ps[i])
  {
    Keyed.Values(s.procs)
  }

  datatype CreateResult = CreateResult(sim: Sim, process: Process)

  /** `createProcess(name, command, autoRestart)`: a stopped record with one log line
      and no working directory. */
  function CreateProcess(s: Sim, id: Id, now: Timestamp, name: string, command: string,
                         autoRestart: bool): (r: CreateResult)
    requires Keyed.Valid(s.procs)
    ensures Keyed.Valid(r.sim.procs) && r.sim.ticking == s.ticking
    ensures r.process.id == id && r.process.name == name && r.process.command == command
    ensures r.process.status == Stopped && r.process.pid == None && r.process.restartCount == 0
    ensures r.process.autoRestart == autoRestart && r.process.createdAt == now
    ensures r.process.logs == [LogLine(now, Created)] && r.process.lastStarted == None
    ensures r.process.cwd == None && r.process.serverId == None
    ensures Lookup(r.sim, id) == Some(r.process)
    ensures Keyed.SameExcept(s.procs, r.sim.procs, id)
    ensures id !in s.procs.entries ==> r.sim.procs.order == s.procs.order + [id]
    ensures Good(s) && id !in s.procs.entries ==> Good(r.sim)
  {
    var p := Process(id, name, command, Stopped, None, now, None, 0, autoRestart,
                     [LogLine(now, Created)], None, None);
    CreateResult(Sim(Keyed.Put(s.procs, id, p), s.ticking), p)
  }

  datatype Outcome = Outcome(sim: Sim, ok: bool)

  /** `startProcess(id)` with `draw` standing for `Math.floor(Math.random() * 65535)`:
      a known record that is not running becomes running with the pid `draw + 1000`
      and its heartbeat timer is armed. */
  function StartProcess(s: Sim, id: Id, now: Timestamp, draw: int): (r: Outcome)
    requires Good(s) && 0 <= draw < PidSpan
    ensures Good(r.sim) && OnlyTouches(s, r.sim, id)
    ensures r.ok <==> id in s.procs.entries && s.procs.entries[id].status != Running
    ensures !r.ok ==> r.sim == s
    ensures id in s.procs.entries ==>
      id in r.sim.procs.entries && LogsExtend(s.procs.entries[id], r.sim.procs.entries[id])
    ensures r.ok ==>
      var b, a := s.procs.entries[id], r.sim.procs.entries[id];
      && id in r.sim.ticking
      && a == b.(status := Running, lastStarted := Some(now), pid := Some(draw + PidBase),
                 logs := b.logs + [LogLine(now, SimStarted(draw + PidBase))])
  {
    if id !in s.procs.entries || s.procs.entries[id].status == Running then Outcome(s, false)
    else
      var p := s.procs.entries[id];
      var pid := draw + PidBase;
      var p' := p.(status := Running, lastStarted := Some(now), pid := Some(pid),
                   logs := p.logs + [LogLine(now, SimStarted(pid))]);
      assert p'.logs[..|p.logs|] == p.logs;
      Outcome(Sim(Keyed.Put(s.procs, id, p'), s.ticking + {id}), true)
  }

  /** `stopProcess(id)`: a running record stops at once and its timer is cleared; the
      pid is left as it was. */
  function StopProcess(s: Sim, id: Id, now: Timestamp): (r: Outcome)
    requires Good(s)
    ensures Good(r.sim) && OnlyTouches(s, r.sim, id)
    ensures r.ok <==> id in s.procs.entries && s.procs.entries[id].status == Running
    ensures !r.ok ==> r.sim == s
    ensures r.ok ==>
      var b, a := s.procs.entries[id], r.sim.procs.entries[id];
      && id !in r.sim.ticking
      && a == b.(status := Stopped, logs := b.logs + [LogLine(now, SimStopped)])
  {
    if id !in s.procs.entries || s.procs.entries[id].status != Running then Outcome(s, false)
    else
      var p := s.procs.entries[id];
      var p' := p.(status := Stopped, logs := p.logs + [LogLine(now, SimStopped)]);
      Outcome(Sim(Keyed.Put(s.procs, id, p'), s.ticking - {id}), true)
  }

  datatype TickResult = TickResult(sim: Sim, restartScheduled: bool)

  /** One firing of the heartbeat timer of `id`, with `fails` standing for the 5%
      draw. A running record logs a heartbeat; on failure it also fails, its timer is
      cleared, and a restart is scheduled when `autoRestart` is set. Without an armed
      timer nothing fires. */
  function Tick(s: Sim, id: Id, at: Timestamp, fails: bool): (r: TickResult)
    requires Good(s)
    ensures Good(r.sim) && OnlyTouches(s, r.sim, id)
    ensures id !in s.ticking ==> r == TickResult(s, false)
    ensures id in s.ticking && !fails ==>
      var b := s.procs.entries[id];
      && r.sim.procs.entries[id] == b.(logs := b.logs + [LogLine(at, SimHeartbeat)])
      && id in r.sim.ticking && !r.restartScheduled
    ensures id in s.ticking && fails ==>
      var b := s.procs.entries[id];
      && r.sim.procs.entries[id] == b.(status := Error, logs := b.logs + [LogLine(at, SimHeartbeat), LogLine(at, SimFailed)])
      && id !in r.sim.ticking
      && (r.restartScheduled <==> b.autoRestart)
  {
    if id !in s.ticking then TickResult(s, false)
    else
      var p := s.procs.entries[id];
      if !fails then
        TickResult(Sim(Keyed.Put(s.procs, id, p.(logs := p.logs + [LogLine(at, SimHeartbeat)])), s.ticking), false)
      else
        var p' := p.(status := Error, logs := p.logs + [LogLine(at, SimHeartbeat), LogLine(at, SimFailed)]);
        TickResult(Sim(Keyed.Put(s.procs, id, p'), s.ticking - {id}), p.autoRestart)
  }

  /** `restartProcess(id)`: stop the record if it runs and count the restart; the start
      happens when the 1-second settle timer fires (`SettleFires`). */
  function RestartProcess(s: Sim, id: Id, now: Timestamp): (r: Outcome)
    requires Good(s)
    ensures Good(r.sim) && OnlyTouches(s, r.sim, id)
    ensures r.ok <==> id in s.procs.entries
    ensures !r.ok ==> r.sim == s
    ensures r.ok ==>
      var b, a := s.procs.entries[id], r.sim.procs.entries[id];
      && a.status != Running && id !in r.sim.ticking
      && a.restartCount == b.restartCount + 1
      && a.status == (if b.status == Running then Stopped else b.status)
      && a.logs == b.logs + (if b.status == Running then [LogLine(now, SimStopped)] else [])
  {
    if id !in s.procs.entries then Outcome(s, false)
    else
      var stopped := StopProcess(s, id, now).sim;
      var p := stopped.procs.entries[id];
      Outcome(Sim(Keyed.Put(stopped.procs, id, p.(restartCount := p.restartCount + 1)), stopped.ticking), true)
  }

  /** The settle timer of a restart: log the restart and start the record. The
      record may have been started or deleted in the meantime. */
  function SettleFires(s: Sim, id: Id, at: Timestamp, draw: int): (r: Outcome)
    requires Good(s) && 0 <= draw < PidSpan
    ensures Good(r.sim) && OnlyTouches(s, r.sim, id)
    ensures id !in s.procs.entries ==> r == Outcome(s, false)
    ensures r.ok <==> id in s.procs.entries && s.procs.entries[id].status != Running
    ensures id in s.procs.entries ==>
      var b, a := s.procs.entries[id], r.sim.procs.entries[id];
      && a.restartCount == b.restartCount
      && |b.logs| < |a.logs| && a.logs[..|b.logs| + 1] == b.logs + [LogLine(at, SimRestarting)]
      && (r.ok ==> a.status == Running && a.pid == Some(draw + PidBase))
      && (!r.ok ==> a.status == Running && a.logs == b.logs + [LogLine(at, SimRestarting)])
  {
    if id !in s.procs.entries then Outcome(s, false)
    else
      var p := s.procs.entries[id];
      var noted := Sim(Keyed.Put(s.procs, id, p.(logs := p.logs + [LogLine(at, SimRestarting)])), s.ticking);
      var r := StartProcess(noted, id, at, draw);
      ExtendsPastAppend(p, noted.procs.entries[id], r.sim.procs.entries[id], LogLine(at, SimRestarting));
      r
  }

  /** `deleteProcess(id)`: stop the record if it runs, then remove exactly it. */
  function DeleteProcess(s: Sim, id: Id, now: Timestamp): (r: Outcome)
    requires Good(s)
    ensures Good(r.sim)
    ensures r.ok <==> id in s.procs.entries
    ensures !r.ok ==> r.sim == s
    ensures r.ok ==>
      && r.sim.procs.entries == s.procs.entries - {id}
      && r.sim.procs.order == Keyed.Without(s.procs.order, id)
      && r.sim.ticking == s.ticking - {id}
  {
    if id !in s.procs.entries then Outcome(s, false)
    else
      var stopped := StopProcess(s, id, now).sim;
      Keyed.RemoveForgets(s.procs, stopped.procs, id);
      Outcome(Sim(Keyed.Remove(stopped.procs, id), stopped.ticking), true)
  }

  // ------------------------------------------------------------------ runs

  /** Requests and timer firings. An automatic restart is a `Restart` event. */
  datatype Event =
    | Create(id: Id, now: Timestamp, name: string, command: string, autoRestart: bool)
    | Start(id: Id, now: Timestamp, draw: int)
    | Stop(id: Id, now: Timestamp)
    | Heartbeat(id: Id, now: Timestamp, fails: bool)
    | Restart(id: Id, now: Timestamp)
    | Settle(id: Id, now: Timestamp, draw: int)
    | Delete(id: Id, now: Timestamp)

  /** The draws are the ones `Math.random` can produce, and ids are fresh. */
  predicate Possible(s: Sim, ev: Event) {
    && ((ev.Start? || ev.Settle?) ==> 0 <= ev.draw < PidSpan)
    && (ev.Create? ==> ev.id !in s.procs.entries)
  }

  function Step(s: Sim, ev: Event): (u: Sim)
    requires Good(s) && Possible(s, ev)
    ensures Good(u)
  {
    match ev
    case Create(id, now, name, command, autoRestart) => CreateProcess(s, id, now, name, command, autoRestart).sim
    case Start(id, now, draw) => StartProcess(s, id, now, draw).sim
    case Stop(id, now) => StopProcess(s, id, now).sim
    case Heartbeat(id, now, fails) => Tick(s, id, now, fails).sim
    case Restart(id, now) => RestartProcess(s, id, now).sim
    case Settle(id, now, draw) => SettleFires(s, id, now, draw).sim
    case Delete(id, now) => DeleteProcess(s, id, now).sim
  }

  /** Runs the events in order; `None` when one of them is not possible where it occurs. */
  function Run(s: Sim, evs: seq<Event>): (r: Option<Sim>)
    requires Good(s)
    decreases |evs|
  {
    if evs == [] then Some(s)
    else if !Possible(s, evs[0]) then None
    else Run(Step(s, evs[0]), evs[1..])
  }

  /** From the empty supervisor, every possible run keeps a heartbeat timer armed for
      exactly the running records, and every running record's pid in range. */
  lemma {:induction false} RunStaysGood(s: Sim, evs: seq<Event>)
    requires Good(s)
    ensures Run(s, evs).Some? ==> Good(Run(s, evs).value)
    decreases |evs|
  {
    if evs != [] && Possible(s, evs[0]) {
      RunStaysGood(Step(s, evs[0]), evs[1..]);
    }
  }

  /** A heartbeat firing for a record that is not running can only be a stale timer,
      and the invariant rules it out: a record without a timer is never ticked. */
  lemma NoStaleHeartbeat(s: Sim, id: Id, at: Timestamp, fails: bool)
    requires Good(s) && id in s.procs.entries && s.procs.entries[id].status != Running
    ensures Tick(s, id, at, fails) == TickResult(s, false)
  {
  }
}

=== FILE: text.dfy ===
/** JavaScript string handling the supervisor relies on: `trim()` and
    `split(/\s+/)`, both over ECMAScript's whitespace set. */
module Text {

  /** ECMAScript WhiteSpace and LineTerminator code points: the characters `trim()`
      strips and the regular-expression class `\s` matches. */
  const Whitespace: set<char> := {
    ' ', '\t', '\n', '\r', '\U{B}', '\U{C}', '\U{A0}', '\U{1680}',
    '\U{2000}', '\U{2001}', '\U{2002}', '\U{2003}', '\U{2004}', '\U{2005}',
    '\U{2006}', '\U{2007}', '\U{2008}', '\U{2009}', '\U{200A}',
    '\U{2028}', '\U{2029}', '\U{202F}', '\U{205F}', '\U{3000}', '\U{FEFF}'
  }

  predicate IsSpace(c: char) {
    c in Whitespace
  }

  predicate NoSpace(s: string) {
    forall i {:trigger IsSpace(s[i])} :: 0 <= i < |s| ==> !IsSpace(s[i])
  }

  predicate AllSpace(s: string) {
    forall i {:trigger IsSpace(s[i])} :: 0 <= i < |s| ==> IsSpace(s[i])
  }

  /** `s` neither starts nor ends with whitespace. */
  predicate Trimmed(s: string) {
    s == [] || (!IsSpace(s[0]) && !IsSpace(s[|s| - 1]))
  }

  // ---------------------------------------------------------------- runs

  /** Length of the leading run of non-whitespace characters of `s`. */
  function WordLength(s: string): (n: nat)
    ensures n <= |s|
    ensures n < |s| ==> IsSpace(s[n])
    ensures s != [] && !IsSpace(s[0]) ==> n >= 1
  {
    if s == [] || IsSpace(s[0]) then 0 else 1 + WordLength(s[1..])
  }

  lemma {:induction false} WordIsNoSpace(s: string)
    ensures NoSpace(s[..WordLength(s)])
  {
    if s != [] && !IsSpace(s[0]) {
      WordIsNoSpace(s[1..]);
      var n := WordLength(s);
      assert s[..n] == [s[0]] + s[1..][..n - 1];
    }
  }

  /** Length of the leading run of whitespace characters of `s`. */
  function SpaceLength(s: string): (n: nat)
    ensures n <= |s|
    ensures n < |s| ==> !IsSpace(s[n])
    ensures s != [] && IsSpace(s[0]) ==> n >= 1
  {
    if s == [] || !IsSpace(s[0]) then 0 else 1 + SpaceLength(s[1..])
  }

  lemma {:induction false} SpaceIsAllSpace(s: string)
    ensures AllSpace(s[..SpaceLength(s)])
  {
    if s != [] && IsSpace(s[0]) {
      SpaceIsAllSpace(s[1..]);
      var n := SpaceLength(s);
      assert s[..n] == [s[0]] + s[1..][..n - 1];
    }
  }

  /** Length of the trailing run of whitespace characters of `s`. */
  function TrailingSpaceLength(s: string): (n: nat)
    ensures n <= |s|
    ensures n < |s| ==> !IsSpace(s[|s| - n - 1])
  {
    if s == [] || !IsSpace(s[|s| - 1]) then 0 else 1 + TrailingSpaceLength(s[..|s| - 1])
  }

  lemma {:induction false} TrailingIsAllSpace(s: string)
    ensures AllSpace(s[|s| - TrailingSpaceLength(s)..])
  {
    if s != [] && IsSpace(s[|s| - 1]) {
      var init := s[..|s| - 1];
      var n := TrailingSpaceLength(s);
      assert n == 1 + TrailingSpaceLength(init);
      TrailingIsAllSpace(init);
      var tail := s[|s| - n..];
      forall i | 0 <= i < |tail|
        ensures IsSpace(tail[i])
      {
        if i < n - 1 {
          assert tail[i] == init[|init| - (n - 1)..][i];
        } else {
          assert tail[i] == s[|s| - 1];
        }
      }
    }
  }

  // ---------------------------------------------------------------- trim

  /** `s.trim()`: `s` without its leading and trailing whitespace runs. */
  function Trim(s: string): (r: string)
    ensures Trimmed(r)
    ensures SpaceLength(s) + |r| <= |s|
    ensures r == s[SpaceLength(s)..SpaceLength(s) + |r|]
  {
    var rest := s[SpaceLength(s)..];
    rest[..|rest| - TrailingSpaceLength(rest)]
  }

  /** Everything `Trim` cuts from the end is whitespace. */
  lemma TrimCutsSpace(s: string)
    ensures AllSpace(s[..SpaceLength(s)])
    ensures AllSpace(s[SpaceLength(s) + |Trim(s)|..])
  {
    var lo := SpaceLength(s);
    var rest := s[lo..];
    var n := TrailingSpaceLength(rest);
    assert |Trim(s)| == |rest| - n;
    assert s[lo + |Trim(s)|..] == rest[|rest| - n..];
    assert AllSpace(rest[|rest| - n..]) by {
      TrailingIsAllSpace(rest);
    }
    assert AllSpace(s[..lo]) by {
      SpaceIsAllSpace(s);
    }
  }

  /** Trimming a string that is already trimmed changes nothing. */
  lemma TrimTrimmed(s: string)
    requires Trimmed(s)
    ensures Trim(s) == s
  {
  }

  // ---------------------------------------------------------------- split

  /** What follows the first word of `s` and the whitespace run after it. */
  function AfterGap(s: string): (r: string)
    requires WordLength(s) < |s|
    ensures |r| < |s|
  {
    s[WordLength(s) + SpaceLength(s[WordLength(s)..])..]
  }

  /** `s.split(/\s+/)`: the pieces between maximal whitespace runs. A leading or
      trailing run yields an empty first or last piece, and `""` yields `[""]`. */
  function SplitOnSpace(s: string): (parts: seq<string>)
    ensures |parts| >= 1
    decreases |s|
  {
    var w := WordLength(s);
    if w == |s| then [s] else [s[..w]] + SplitOnSpace(AfterGap(s))
  }

  /** No piece contains whitespace. */
  predicate AllNoSpace(parts: seq<string>) {
    forall p :: p in parts ==> NoSpace(p)
  }

  /** No piece is empty. */
  predicate AllNonEmpty(parts: seq<string>) {
    forall p :: p in parts ==> p != []
  }

  /** The whitespace run after the first word is non-empty. */
  lemma GapNonEmpty(s: string)
    requires WordLength(s) < |s|
    ensures 1 <= SpaceLength(s[WordLength(s)..])
  {
    var w := WordLength(s);
    assert s[w..][0] == s[w];
  }

  /** The gap after the first word is non-empty, and `AfterGap` starts right after it. */
  lemma AfterGapShape(s: string)
    requires WordLength(s) < |s|
    ensures var w := WordLength(s); var gap := SpaceLength(s[w..]);
            1 <= gap && w + gap <= |s| && AfterGap(s) == s[w + gap..]
  {
    GapNonEmpty(s);
  }

  /** No piece of a split contains whitespace. */
  lemma {:induction false} SplitPiecesHaveNoSpace(s: string)
    ensures AllNoSpace(SplitOnSpace(s))
    decreases |s|
  {
    var w := WordLength(s);
    WordIsNoSpace(s);
    if w == |s| {
      assert s[..w] == s;
    } else {
      SplitPiecesHaveNoSpace(AfterGap(s));
    }
  }

  /** Splitting a non-empty trimmed string yields no empty piece. */
  lemma {:induction false} SplitPiecesNonEmpty(s: string)
    requires s != [] && Trimmed(s)
    ensures AllNonEmpty(SplitOnSpace(s))
    decreases |s|
  {
    var w := WordLength(s);
    if w < |s| {
      AfterGapShape(s);
      var gap := SpaceLength(s[w..]);
      var rest := AfterGap(s);
      assert w + gap < |s| by {
        SpaceIsAllSpace(s[w..]);
        assert s[w..][..gap][gap - 1] == s[w + gap - 1];
        assert IsSpace(s[w + gap - 1]);
      }
      assert rest[0] == s[w..][gap];
      assert rest[|rest| - 1] == s[|s| - 1];
      SplitPiecesNonEmpty(rest);
    }
  }

  // ---------------------------------------------------------------- letters

  /** The characters of `s` that are not whitespace, in order. */
  function Letters(s: string): string {
    if s == [] then [] else (if IsSpace(s[0]) then [] else [s[0]]) + Letters(s[1..])
  }

  function Concat(parts: seq<string>): string {
    if parts == [] then [] else parts[0] + Concat(parts[1..])
  }

  lemma {:induction false} LettersAppend(a: string, b: string)
    ensures Letters(a + b) == Letters(a) + Letters(b)
  {
    if a == [] {
      assert a + b == b;
    } else {
      assert (a + b)[1..] == a[1..] + b;
      LettersAppend(a[1..], b);
    }
  }

  lemma {:induction false} LettersNoSpace(s: string)
    requires NoSpace(s)
    ensures Letters(s) == s
  {
    if s != [] {
      LettersNoSpace(s[1..]);
    }
  }

  lemma {:induction false} LettersAllSpace(s: string)
    requires AllSpace(s)
    ensures Letters(s) == []
  {
    if s != [] {
      LettersAllSpace(s[1..]);
    }
  }

  lemma LettersSplitAt(s: string, i: nat)
    requires i <= |s|
    ensures Letters(s) == Letters(s[..i]) + Letters(s[i..])
  {
    var a, b := s[..i], s[i..];
    LettersAppend(a, b);
    assert a + b == s;
  }

  lemma ConcatCons(x: string, ys: seq<string>)
    ensures Concat([x] + ys) == x + Concat(ys)
  {
    assert ([x] + ys)[1..] == ys;
  }

  /** A leading whitespace run contributes no letters. */
  lemma LettersSkipRun(t: string, gap: nat)
    requires gap <= |t| && AllSpace(t[..gap])
    ensures Letters(t) == Letters(t[gap..])
  {
    LettersSplitAt(t, gap);
    LettersAllSpace(t[..gap]);
    assert [] + Letters(t[gap..]) == Letters(t[gap..]);
  }

  /** A leading whitespace-free word contributes itself. */
  lemma LettersKeepWord(s: string, w: nat)
    requires w <= |s| && NoSpace(s[..w])
    ensures Letters(s) == s[..w] + Letters(s[w..])
  {
    LettersSplitAt(s, w);
    LettersNoSpace(s[..w]);
  }

  /** A whitespace-free word, a whitespace run, then `rest`: the letters are the word
      followed by the letters of `rest`. */
  lemma LettersWordRun(s: string, w: nat, gap: nat, rest: string)
    requires w + gap <= |s| && NoSpace(s[..w]) && AllSpace(s[w..][..gap])
    requires rest == s[w + gap..]
    ensures Letters(s) == s[..w] + Letters(rest)
  {
    var t := s[w..];
    LettersKeepWord(s, w);
    LettersSkipRun(t, gap);
    assert t[gap..] == rest;
  }

  /** The first word of `s` and the gap after it, as whitespace-free and whitespace runs. */
  lemma AfterGapParts(s: string)
    requires WordLength(s) < |s|
    ensures var w := WordLength(s); var gap := SpaceLength(s[w..]);
            && w + gap <= |s| && AfterGap(s) == s[w + gap..]
            && NoSpace(s[..w]) && AllSpace(s[w..][..gap])
  {
    AfterGapShape(s);
    WordIsNoSpace(s);
    SpaceIsAllSpace(s[WordLength(s)..]);
  }

  /** The letters of `s` are its first word followed by the letters after the gap. */
  lemma LettersAfterWord(s: string)
    requires WordLength(s) < |s|
    ensures Letters(s) == s[..WordLength(s)] + Letters(AfterGap(s))
  {
    AfterGapParts(s);
    LettersWordRun(s, WordLength(s), SpaceLength(s[WordLength(s)..]), AfterGap(s));
  }

  /** The concatenated pieces are the first word followed by the pieces after the gap. */
  lemma ConcatAfterWord(s: string)
    requires WordLength(s) < |s|
    ensures Concat(SplitOnSpace(s)) == s[..WordLength(s)] + Concat(SplitOnSpace(AfterGap(s)))
  {
    ConcatCons(s[..WordLength(s)], SplitOnSpace(AfterGap(s)));
  }

  /** Splitting keeps every non-whitespace character, in order, and drops only whitespace. */
  lemma {:induction false} SplitKeepsLetters(s: string)
    ensures Concat(SplitOnSpace(s)) == Letters(s)
    decreases |s|
  {
    var w := WordLength(s);
    if w == |s| {
      WordIsNoSpace(s);
      assert s[..w] == s;
      LettersNoSpace(s);
      ConcatCons(s, []);
    } else {
      LettersAfterWord(s);
      ConcatAfterWord(s);
      SplitKeepsLetters(AfterGap(s));
    }
  }

  /** Trimming removes only whitespace. */
  lemma TrimKeepsLetters(s: string)
    ensures Letters(Trim(s)) == Letters(s)
  {
    var lo := SpaceLength(s);
    var r := Trim(s);
    var t := s[lo..];
    TrimCutsSpace(s);
    assert Letters(s) == Letters(t) by {
      LettersSkipRun(s, lo);
    }
    assert Letters(t) == Letters(r) + Letters(t[|r|..]) by {
      LettersSplitAt(t, |r|);
      assert t[..|r|] == r;
    }
    assert Letters(t[|r|..]) == [] by {
      assert t[|r|..] == s[lo + |r|..];
      LettersAllSpace(t[|r|..]);
    }
    assert Letters(r) + [] == Letters(r);
  }

  // ---------------------------------------------------------------- join

  /** Every piece is a non-empty whitespace-free word. */
  predicate Words(parts: seq<string>) {
    forall p :: p in parts ==> p != [] && NoSpace(p)
  }

  /** Every piece is a non-empty whitespace run. */
  predicate Gaps(parts: seq<string>) {
    forall g :: g in parts ==> g != [] && AllSpace(g)
  }

  /** `words[0] + gaps[0] + words[1] + … + gaps[n-1] + words[n]`. */
  function JoinWith(words: seq<string>, gaps: seq<string>): string
    requires |words| >= 1 && |gaps| == |words| - 1
  {
    if |words| == 1 then words[0] else words[0] + gaps[0] + JoinWith(words[1..], gaps[1..])
  }

  /** When `s` starts with the whitespace-free word `w` followed by whitespace or the
      end, `WordLength(s)` is `|w|`. */
  lemma {:induction false} WordOfNoSpace(s: string, w: string)
    requires |w| <= |s| && s[..|w|] == w && NoSpace(w)
    requires |w| < |s| ==> IsSpace(s[|w|])
    ensures WordLength(s) == |w|
    decreases |w|
  {
    if w != [] {
      assert s[0] == w[0];
      assert s[1..][..|w| - 1] == w[1..];
      WordOfNoSpace(s[1..], w[1..]);
    }
  }

  /** When `s` starts with the whitespace run `g` followed by a non-whitespace
      character or the end, `SpaceLength(s)` is `|g|`. */
  lemma {:induction false} SpaceOfAllSpace(s: string, g: string)
    requires |g| <= |s| && s[..|g|] == g && AllSpace(g)
    requires |g| < |s| ==> !IsSpace(s[|g|])
    ensures SpaceLength(s) == |g|
    decreases |g|
  {
    if g != [] {
      assert s[0] == g[0];
      assert s[1..][..|g| - 1] == g[1..];
      SpaceOfAllSpace(s[1..], g[1..]);
    }
  }

  /** A string ending in a non-whitespace character, then the whitespace run `trail`:
      the trailing run is exactly `trail`. */
  lemma {:induction false} TrailingOfAllSpace(x: string, trail: string)
    requires x != [] && !IsSpace(x[|x| - 1]) && AllSpace(trail)
    ensures TrailingSpaceLength(x + trail) == |trail|
    decreases |trail|
  {
    var s := x + trail;
    if trail == [] {
      assert s == x;
    } else {
      var init := trail[..|trail| - 1];
      assert s[|s| - 1] == trail[|trail| - 1];
      assert s[..|s| - 1] == x + init;
      TrailingOfAllSpace(x, init);
    }
  }

  /** Trimming a trimmed non-empty string padded with whitespace on both sides gives
      back that string. */
  lemma TrimPadded(lead: string, x: string, trail: string)
    requires AllSpace(lead) && AllSpace(trail)
    requires x != [] && Trimmed(x)
    ensures Trim(lead + x + trail) == x
  {
    var s := lead + x + trail;
    assert s[..|lead|] == lead;
    assert s[|lead|] == x[0];
    SpaceOfAllSpace(s, lead);
    var rest := s[|lead|..];
    assert rest == x + trail;
    TrailingOfAllSpace(x, trail);
    assert rest[..|rest| - |trail|] == x;
  }

  /** A single whitespace-free word splits to itself. */
  lemma SplitWord(w: string)
    requires NoSpace(w)
    ensures SplitOnSpace(w) == [w]
  {
    assert w[..|w|] == w;
    WordOfNoSpace(w, w);
  }

  /** A word, a whitespace run, then a string starting with a non-whitespace character:
      the split takes the word and continues after the run. */
  lemma SplitWordGap(w: string, g: string, rest: string)
    requires NoSpace(w) && g != [] && AllSpace(g)
    requires rest != [] && !IsSpace(rest[0])
    ensures SplitOnSpace(w + g + rest) == [w] + SplitOnSpace(rest)
  {
    var s := w + g + rest;
    assert WordLength(s) == |w| by {
      assert s[..|w|] == w;
      assert s[|w|] == g[0];
      WordOfNoSpace(s, w);
    }
    var t := s[|w|..];
    assert SpaceLength(t) == |g| by {
      assert t == g + rest;
      assert t[..|g|] == g && t[|g|] == rest[0];
      SpaceOfAllSpace(t, g);
    }
    assert AfterGap(s) == rest by {
      assert s[|w| + |g|..] == rest;
    }
    assert s[..|w|] == w;
  }

  /** A join of non-empty whitespace-free words is non-empty and trimmed. */
  lemma {:induction false} JoinIsTrimmed(words: seq<string>, gaps: seq<string>)
    requires |words| >= 1 && |gaps| == |words| - 1 && Words(words)
    ensures JoinWith(words, gaps) != [] && Trimmed(JoinWith(words, gaps))
    decreases |words|
  {
    assert words[0] in words;
    if |words| > 1 {
      var tail := words[1..];
      assert forall p :: p in tail ==> p in words;
      JoinIsTrimmed(tail, gaps[1..]);
      var s := JoinWith(words, gaps);
      var r := JoinWith(tail, gaps[1..]);
      assert s == words[0] + gaps[0] + r;
      assert s[0] == words[0][0];
      assert s[|s| - 1] == r[|r| - 1];
    }
  }

  /** Round trip: non-empty whitespace-free words joined with any non-empty whitespace
      runs split back into exactly those words. */
  lemma {:induction false} SplitJoinRoundTrip(words: seq<string>, gaps: seq<string>)
    requires |words| >= 1 && |gaps| == |words| - 1 && Words(words) && Gaps(gaps)
    ensures SplitOnSpace(JoinWith(words, gaps)) == words
    decreases |words|
  {
    var w0 := words[0];
    assert w0 in words;
    if |words| == 1 {
      SplitWord(w0);
    } else {
      var tail, gs := words[1..], gaps[1..];
      assert forall p :: p in tail ==> p in words;
      assert forall g :: g in gs ==> g in gaps;
      assert gaps[0] in gaps;
      var rest := JoinWith(tail, gs);
      assert SplitOnSpace(JoinWith(words, gaps)) == [w0] + SplitOnSpace(rest) by {
        JoinIsTrimmed(tail, gs);
        SplitWordGap(w0, gaps[0], rest);
      }
      SplitJoinRoundTrip(tail, gs);
      assert words == [w0] + tail;
    }
  }

  // ---------------------------------------------------------------- command

  /** The executable and argument vector handed to `spawn`. */
  datatype CommandLine = CommandLine(executable: string, args: seq<string>)

  /** `command.trim().split(/\s+/)`, the first piece as the executable and the rest as
      its arguments. Quoting and escaping are not interpreted. */
  function ParseCommand(command: string): (c: CommandLine)
    ensures c.executable + Concat(c.args) == Letters(command)
    ensures NoSpace(c.executable) && AllNoSpace(c.args)
    ensures Trim(command) == [] <==> c.executable == []
    ensures Trim(command) == [] ==> c.args == []
    ensures AllNonEmpty(c.args)
  {
    var t := Trim(command);
    var parts := SplitOnSpace(t);
    SplitKeepsLetters(t);
    TrimKeepsLetters(command);
    SplitPiecesHaveNoSpace(t);
    if t == [] then
      CommandLine([], [])
    else
      SplitPiecesNonEmpty(t);
      assert parts == [parts[0]] + parts[1..];
      ConcatCons(parts[0], parts[1..]);
      assert parts[0] in parts;
      assert forall a :: a in parts[1..] ==> a in parts;
      CommandLine(parts[0], parts[1..])
  }

  /** Round trip for commands: a command line made of whitespace-free words separated
      by whitespace runs of any length, with optional whitespace before and after,
      parses to its first word as the executable and the other words as arguments. */
  lemma ParseJoinedCommand(lead: string, words: seq<string>, gaps: seq<string>, trail: string)
    requires |words| >= 1 && |gaps| == |words| - 1 && Words(words) && Gaps(gaps)
    requires AllSpace(lead) && AllSpace(trail)
    ensures ParseCommand(lead + JoinWith(words, gaps) + trail) == CommandLine(words[0], words[1..])
  {
    var j := JoinWith(words, gaps);
    JoinIsTrimmed(words, gaps);
    TrimPadded(lead, j, trail);
    SplitJoinRoundTrip(words, gaps);
  }

  /** A command of whitespace only has an empty executable and no arguments. */
  lemma BlankCommand(command: string)
    requires AllSpace(command)
    ensures ParseCommand(command) == CommandLine([], [])
  {
    assert command[..|command|] == command;
    SpaceOfAllSpace(command, command);
  }
}
